=== FILE: README.md ===
# ARPAV air-quality archive scraper, modelled in Dafny

The scraper collects validated air-pollution readings for one city from the
ARPAV (Veneto) archive portal. It works one calendar day at a time. For each
day it fills the portal's form, reads the rendered bulletin table and writes
one CSV row per (measurement column, station) into a per-month file,
`<root>/<year>/<month>/<year>_<month>_arpav_data.csv`.

The table's header has three rows: pollutants, measurement kinds and
measurement units. The scraper rebuilds it from the x-coordinates of the
rendered cells. Each lower cell is tagged with the upper cell whose interval
`[x_j, x_{j+1})` contains it, and the last upper cell's interval is open to
the right.

The project models:

- **Header linking** (`linker.dfy`, module `Linker`). The two interval
  linkers, `_link_meas_info_to_pollutant_columns` and
  `_link_meas_units_to_meas_info_columns`:
  - with Python's short-circuiting chained comparison;
  - with the `IndexError` fallback for the last upper cell;
  - with the `KeyError` the unit linker raises when the covering kind cell
    has no pollutant.
- **Table flattening** (`table.dfy`, module `Table`).
  `_get_data_from_table_by_cityname` on an abstract rendered page:
  - the empty-header guard and return codes 0/1;
  - a missing link in a kind cell;
  - `del measurement_units[:3]`;
  - the column-major double loop over grid cell `(j+4, i+4)`;
  - the exceptions the loops can raise, keeping the rows already written.
- **Form values** (`form.dfy`, `decimal.dfy`). `_set_values_combo_box`:
  two-digit day and month, plain decimal year.
- **Month file paths** (`paths.dfy`, module `ArchivePaths`). POSIX
  `os.path.join`, and the month path built by each script.
- **The day walk and the writer** (`calendar.dfy`, `walk.dfy`, module
  `DateWalk`):
  - `starting_date + timedelta(days=day_id)` for `365 * (last_year - year)`
    days;
  - `_prepare_writer`'s close-then-open rotation;
  - the existence test that decides whether a file is opened;
  - rows handed to a `None` writer;
  - the final `close()`.

  Files are a set of existing paths plus a log of `Opened`, `Wrote` and
  `Closed` events.
- **The tally and the summary** (`tally.dfy`, `archive.dfy`). The running
  total of return codes, the list of days without data, and the closing
  percentage.

The rendering browser is a parameter `render: Date -> Page`. The walk is
generic over a day's retrieval `Config.scrape`, which `Run` binds to
`Extract(render(d), city, d)`.

Behaviour of the code that the model keeps, though it may surprise:

- A kind cell left of every pollutant, and a unit cell left of every kind,
  gets no key. Sorted or not, this is the only way a cell stays unlinked
  (`Linker.UnlinkedIffLeftOfAll`).
- A page with a pollutant row but no data columns returns 1 and writes
  nothing (`Table.ExtractedWithoutRows`).
- When a month's file already exists, no writer is opened for it:
  - on the first day, rows go to a `None` writer and the walk raises
    (`DateWalk.ExistingFirstMonthRaises`);
  - later in the walk, that month's rows are appended to whichever file is
    still open, possibly another month's
    (`DateWalk.ExistingMonthGoesToOpenFile`).
- A walk that raises never closes its open file.
- Both scripts carry the same linkers, extraction and walk.
  `arpav-web-scraper.py` inlines the walk and writer rotation in its
  `__main__` block (lines 149-179) and has no tally. Its extraction returns
  nothing instead of 0/1. Its month path is built with a single join; the
  other script uses a three-argument join, and the contract of
  `ArchivePaths.SeleniumMonthPath` states that both give the same path. Citations below use
  `arpav_scraper_with_selenium.py`. In `arpav-web-scraper.py` the same code
  sits at lines 40-100 (extraction), 102-109 (combo box), 115-129 (kind
  linker) and 131-146 (unit linker).
- With a single pollutant, a kind cell left of that pollutant stays
  unlinked (`Linker.SingleAncestor`).
- Without a writer, the day raises as soon as the loops reach
  `writer.writerow`. Python looks `writerow` up before it builds the row, so
  this happens even when the column's missing pollutant would raise next
  (`Table.CallsWriterIffFirstCell`, `DateWalk.Record`).

## Model

| member | source | states |
|---|---|---|
| Linker.FirstCoverFrom | arpav_scraper_with_selenium.py:107-116 | The inner loop from ancestor j stops at the first ancestor in list order whose interval holds x. It returns None only when no ancestor from j on holds x. |
| Linker.FirstCover | arpav_scraper_with_selenium.py:106-116 | The ancestor a child is linked to is the first covering one in list order, and None means no ancestor covers the child. |
| Linker.CoverExistsFrom | arpav_scraper_with_selenium.py:112-116 | From any ancestor starting at or left of x, some later ancestor covers x. The last ancestor's interval has no right end. |
| Linker.UnlinkedIffLeftOfAll | arpav_scraper_with_selenium.py:106-116 | A child stays unlinked exactly when its x is left of every ancestor start, whether or not the starts are sorted. |
| Linker.CoversIffGreatestStart | arpav_scraper_with_selenium.py:109 | On strictly increasing starts, ancestor k covers x iff k has the greatest start not right of x. |
| Linker.LinkedToGreatestStart | arpav_scraper_with_selenium.py:106-116 | On strictly increasing starts, a child is linked to k iff k has the greatest start at most x (both directions). |
| Linker.LinkedIffNotLeftOfFirst | arpav_scraper_with_selenium.py:106-116 | On sorted starts, a child is linked iff there is an ancestor and the child is not left of the first one. |
| Linker.TieGoesToLaterAncestor | arpav_scraper_with_selenium.py:109 | Intervals are closed on the left and open on the right. A child at ancestor j's start goes to j; one unit left of it goes to j-1. |
| Linker.RightOfLastGoesToLast | arpav_scraper_with_selenium.py:112-116 | Anything at or right of the last ancestor's start is linked to the last ancestor. |
| Linker.SingleAncestor | arpav_scraper_with_selenium.py:106-116 | With one ancestor, a child is linked to it iff the child is not left of it. |
| Linker.LinkKind | arpav_scraper_with_selenium.py:106-116 | A kind cell keeps its text and x. It gets no pollutant iff it is left of every pollutant. Otherwise it gets the text of the first pollutant in row order whose interval holds it (the `break`). |
| Linker.LinkKinds | arpav_scraper_with_selenium.py:102-116 | The kind row is linked cell by cell. Its length and order are kept. |
| Linker.LinkKindsSorted | arpav_scraper_with_selenium.py:102-116 | On sorted pollutant starts, kind cell i carries the pollutant with the greatest start at most its x. It carries none iff it is left of the first pollutant. |
| Linker.LinkUnit | arpav_scraper_with_selenium.py:121-133 | A unit cell keeps its text and x. It has no owner iff it is left of every kind. Otherwise it copies kind text and pollutant together from the first covering kind in row order (the `break`), or fails with the index of that first covering kind when it has no pollutant (KeyError). |
| Linker.LinkUnitsFrom | arpav_scraper_with_selenium.py:121-133 | On success, the outer loop from unit i returns those units, each linked by the inner loop. On failure it names a failing unit and the unlinked kind that covers it, and all units before it linked. So it fails exactly when some unit from i on fails. |
| Linker.LinkUnits | arpav_scraper_with_selenium.py:118-133 | The whole unit row is linked element by element, or the first unit that raises is reported with the unlinked kind that covers it. |
| Linker.LinkUnitsSucceedsIffKindsLinked | arpav_scraper_with_selenium.py:124-132 | The unit linker raises iff some unit lies under a kind cell that got no pollutant. |
| Table.ReturnCode | arpav_scraper_with_selenium.py:88-91 | An extraction that did not raise returns 0 exactly when there was no data, and never more than 1. |
| Table.ReadKindRowFrom | arpav_scraper_with_selenium.py:54-56 | Reading the kind row succeeds iff every cell has a nested link. The cells then become (link text, x) in order. Otherwise it fails at a cell without a link. |
| Table.DropMetadata | arpav_scraper_with_selenium.py:65-66 | The first three unit columns are dropped. A row of three or fewer becomes empty, and data column k is unit column k+3. |
| Table.DataColumns | arpav_scraper_with_selenium.py:54-66 | Header reconstruction yields max(units-3, 0) data columns. Column k has the text and x of unit column k+3, and its owner is what the unit linker gives that cell against the kind row linked to the pollutant row. It succeeds iff the kind row reads and the whole unit row links, so one metadata unit under a kind without a pollutant fails the page. A failure is either a kind cell without a link, which the kind row reader reports, or a unit whose covering kind got no pollutant (KeyError). |
| Table.DataColumnOwner | arpav_scraper_with_selenium.py:54-66 | With sorted pollutant and kind starts, data column k has no owner iff its unit is left of every kind cell. Otherwise its owner is the kind with the greatest start at most the unit's x, paired with the pollutant with the greatest start at most that kind's x. |
| Table.EmitCell | arpav_scraper_with_selenium.py:73-85 | The row for data column i and station j succeeds iff grid cell (j+4, i+4) exists and column i is linked. Every field is then taken from that cell, column, station, city and date. A failure is MissingCell for that cell when it is absent, and otherwise ColumnUnlinked(i). |
| Table.EmitColumn | arpav_scraper_with_selenium.py:72-85 | The station loop for one column writes the successful cells in order. It finishes iff it wrote every station, and otherwise stops with the error of the next cell. |
| Table.EmitColumns | arpav_scraper_with_selenium.py:71-85 | Every row the column loop writes carries the sheet's city and date. The only errors it can raise are grid errors. |
| Table.Extract | arpav_scraper_with_selenium.py:40-91 | No data iff the pollutant row is empty, and then nothing is written. Every written row carries the caller's city and date. A header error writes nothing. |
| Table.RowIndexIsColumnMajor | arpav_scraper_with_selenium.py:71-72 | The position of (column c, station j) in the output is c * stations + j. |
| Table.EmitColumnsLength | arpav_scraper_with_selenium.py:71-85 | Loops that finish from column i write one row per station for each remaining column. |
| Table.EmitColumnsAt | arpav_scraper_with_selenium.py:71-85 | In finished loops, the cell of (c, j) sits at its column-major position. |
| Table.EmitColumnsFailure | arpav_scraper_with_selenium.py:71-85 | Loops that raise were stopped by the cell of some (c, j), after exactly the rows of the pairs before it. |
| Table.SheetRow | arpav_scraper_with_selenium.py:71-85 | A finished sheet has the row of (c, j) at its column-major position. |
| Table.SheetLayout | arpav_scraper_with_selenium.py:71-85 | A finished sheet writes columns * stations rows, each pair's row at its column-major position. |
| Table.SheetFailure | arpav_scraper_with_selenium.py:71-85 | Loops that raise name the failing cell and have written the rows before it. |
| Table.ExtractedCount | arpav_scraper_with_selenium.py:66-85 | A page that yields data writes max(units-3, 0) * stations rows. |
| Table.ExtractedRow | arpav_scraper_with_selenium.py:73-85 | On a page that yields data, the row at c * stations + j holds these fields: grid cell (j+4, c+4), the pollutant and kind linked to unit column c+3, that column's unit text, station j, and the caller's city and date. |
| Table.ExtractFailureKeepsPrefix | arpav_scraper_with_selenium.py:71-85 | An extraction that raises in the loops has written exactly the rows of the pairs before the failing pair. The error is MissingCell of that pair's cell when the grid lacks it, and otherwise ColumnUnlinked of its column, whose owner is None. |
| Table.ExtractedWithoutRows | arpav_scraper_with_selenium.py:52-88 | A page with a pollutant row but no data columns returns 1 and writes no row. |
| Table.CallsWriterIffFirstCell | arpav_scraper_with_selenium.py:71-85 | The loops reach `writer.writerow` iff the page has a pollutant row, its header is rebuilt with at least one data column, there is at least one station, and grid cell (4, 4) exists. |
| Table.TwoPollutantHeader | arpav_scraper_with_selenium.py:50-66 | On a two-pollutant page, the two data columns are owned by (max ora, NO2) and (media giorn., PM10). |
| Table.TwoPollutantPage | arpav_scraper_with_selenium.py:71-85 | The same page yields four readings in column-major order, with values, owners and stations as laid out. |
| Form.ComboBoxValues | arpav_scraper_with_selenium.py:93-100 | The province is the city. Day, month and year are digit strings that read back as the date's fields. Day and month of a valid date are two characters, and the year has no leading zero. |
| Form.ComboBoxValuesInjective | arpav_scraper_with_selenium.py:93-100 | Distinct (city, date) pairs fill the form differently. |
| Decimal.DecimalString | arpav_scraper_with_selenium.py:99 | `str(n)` is all digits, non-empty, with no leading zero when n > 0. It has one digit below 10 and two from 10 to 99. |
| Decimal.ParseDecimalString | arpav_scraper_with_selenium.py:99 | Reading the decimal string back gives n. |
| Decimal.DecimalStringInjective | arpav_scraper_with_selenium.py:168-170 | Distinct numbers have distinct decimal strings. |
| Decimal.ZeroPad2 | arpav_scraper_with_selenium.py:97-98 | `'{:02d}'` gives at least two digits, exactly two below 100, and reads back as n. From 10 on it is the plain decimal string. |
| Calendar.NextDay | arpav_scraper_with_selenium.py:166 | The next day of a valid date is valid and later. It stays in the same month or starts the next month on day 1. |
| Calendar.NextDayIsSuccessor | arpav_scraper_with_selenium.py:166 | No valid date lies strictly between a date and its next day. |
| Calendar.AddDays | arpav_scraper_with_selenium.py:166 | Adding n > 0 days gives a later valid date. |
| Calendar.AddDaysMonthMonotone | arpav_scraper_with_selenium.py:165-166 | Adding more days never moves to an earlier month. |
| Calendar.VisitedDays | arpav_scraper_with_selenium.py:165-166 | The walk visits 365 * (last_year - start year) days, or none when that is not positive. It starts at the start date and each day is the previous day's successor. |
| Calendar.VisitedDaysMonthsOrdered | arpav_scraper_with_selenium.py:165-166 | Months never go backwards along the walk. |
| ArchivePaths.JoinPath | arpav_scraper_with_selenium.py:167-169 | `os.path.join(a, b)` ends with b. For a relative b it starts with a and is at most one character longer than a and b together. |
| ArchivePaths.JoinPathShape | arpav_scraper_with_selenium.py:167-169 | The exact shape of `os.path.join(a, b)`. An absolute b is the whole result. For a relative b the result is a, then one '/' exactly when a is non-empty and does not end with '/', then b. |
| ArchivePaths.DecimalNoSlash | arpav_scraper_with_selenium.py:168-169 | A year or month string has no separator. |
| ArchivePaths.MonthPathJoin | arpav-web-scraper.py:157 | The single join gives the root, a separator unless the root is empty or already ends with one, then `<year>/<month>/<year>_<month>_arpav_data.csv`. |
| ArchivePaths.SeleniumMonthPath | arpav_scraper_with_selenium.py:168-170 | The three-argument join names the same file as the single join, for every root. |
| ArchivePaths.MonthRelativeInjective | arpav_scraper_with_selenium.py:168-169 | Different (year, month) pairs give different relative paths. |
| ArchivePaths.MonthPathInjective | arpav_scraper_with_selenium.py:167-169 | Under one root, two months share a file only if they are the same month. |
| DateWalk.Writes | arpav_scraper_with_selenium.py:77-85 | One `Wrote` event per row, in order, all to the same file. |
| DateWalk.Scraper | arpav_scraper_with_selenium.py:135-138 | A day's retrieval reports no data exactly when that day's page has no table. Every row it yields carries that day's date and the city. |
| DateWalk.Rotate | arpav_scraper_with_selenium.py:147-159 | The path now exists and is the open file. Replayed from the file open before, the appended close and open are valid and leave the path as the only open file. The path is the only file opened, last, and no row is written. Codes and errors are untouched. |
| DateWalk.Prepare | arpav_scraper_with_selenium.py:171-172 | A day whose file exists leaves the state alone. Otherwise the path is created and becomes the open file. The log gains at most a close and an open, which replay validly to the new open file. |
| DateWalk.Record | arpav_scraper_with_selenium.py:173-178 | Rows go to the open file, and without one nothing is written. Without a writer, a day whose loops reach `writerow` raises NoWriter. Otherwise a retrieval that raised ends the day with that error. A day that ends normally adds its return code. |
| DateWalk.Finish | arpav_scraper_with_selenium.py:182 | The final close succeeds iff a file is open, and raises NothingToClose otherwise. On success it appends only a close, which replays validly and leaves no file open. A walk that already raised is left unchanged. |
| DateWalk.Step | arpav_scraper_with_selenium.py:167-178 | A walk that has raised stays as it is. Otherwise files are only added and the log only grows. A day that ends normally did not raise and appends its own return code; one that raises keeps the codes. |
| DateWalk.WalkDays | arpav_scraper_with_selenium.py:165-180 | Over the day loop, files are only added, and the log and codes only grow. At most one code is added per day. |
| DateWalk.Run | arpav_scraper_with_selenium.py:162-182 | Files are never removed. A walk that ends normally leaves no file open, and its last event closes a file. |
| DateWalk.StepEffect | arpav_scraper_with_selenium.py:171-172 | A day keeps the existing files and the writer when its file exists. Otherwise it creates its file and opens it. |
| DateWalk.StepScoped | arpav_scraper_with_selenium.py:171-178 | If the log so far keeps one file open at a time with every row going to the open file, it still does after a day. |
| DateWalk.WalkScoped | arpav_scraper_with_selenium.py:165-180 | The whole day loop keeps that discipline. |
| DateWalk.RunScoped | arpav_scraper_with_selenium.py:162-182 | A walk that ends normally opened, wrote to and closed files one at a time, and leaves none open. |
| DateWalk.StepAppends | arpav_scraper_with_selenium.py:171-178 | A day only appends to the log: at most one open, of its own month file, and only when that file did not exist. |
| DateWalk.StepOpensFresh | arpav_scraper_with_selenium.py:171-172 | If no file was opened twice and every opened file was new, the same holds after a day. |
| DateWalk.WalkOpensFresh | arpav_scraper_with_selenium.py:165-180 | The same holds over the whole day loop. |
| DateWalk.RunOpensEachFileOnce | arpav_scraper_with_selenium.py:162-182 | Over a whole walk, a file is opened (and truncated) only if it did not exist before, and never twice. |
| DateWalk.ScraperRowsDated | arpav_scraper_with_selenium.py:135-138 | Every row the day's retrieval yields carries that day's date. |
| DateWalk.ExistingIsCurrent | arpav_scraper_with_selenium.py:171-172 | On a fresh archive, a day whose file already exists shares its month with the previous day, so its file is the open one. |
| DateWalk.StepRoutedRows | arpav_scraper_with_selenium.py:171-178 | When the open file is the day's file whenever that file exists, the day's rows go to the file of their own month. |
| DateWalk.StepRouted | arpav_scraper_with_selenium.py:171-178 | The routing invariant survives a day: rows went to their month's file, the created paths are the visited days' paths, and the open file is the last day's. |
| DateWalk.WalkRouted | arpav_scraper_with_selenium.py:165-180 | The routing invariant holds over the whole loop on a fresh archive. |
| DateWalk.RunRoutesByMonth | arpav_scraper_with_selenium.py:162-182 | If none of the visited months' files exists beforehand, every row written went to the file of its own date's month, even when the walk later raised. |
| DateWalk.ExistingFirstMonthRaises | arpav_scraper_with_selenium.py:173-178 | If the first month's file already exists and the first day's loops reach `writer.writerow`, the walk raises NoWriter at once. |
| DateWalk.ExistingMonthGoesToOpenFile | arpav_scraper_with_selenium.py:171-178 | A day whose file exists appends its rows to whatever file is open, and the writer is kept. |
| DateWalk.WalkCodes | arpav_scraper_with_selenium.py:176-178 | A loop that does not raise records each day's return code in day order, and no day's retrieval raised. |
| DateWalk.RunCodes | arpav_scraper_with_selenium.py:176-178 | A walk that ends normally has one code per visited day: 0 exactly for the days whose page had no table, 1 for the others. |
| Tally.Sum | arpav_scraper_with_selenium.py:176-178 | With codes of at most 1, the total is at most the number of days. |
| Tally.SumZero | arpav_scraper_with_selenium.py:179 | The running total is 0 iff every code so far is 0. |
| Tally.FirstSuccess | arpav_scraper_with_selenium.py:179-180 | The index of the first nonzero code: every earlier code is 0, and it is the number of days when none is nonzero. |
| Tally.MissingAsWritten | arpav_scraper_with_selenium.py:179-180 | As written, the list is always a prefix of the days. While the running total is 0 it is every day. Once the total is nonzero it is a shorter prefix, so the last day is not listed. |
| Tally.MissingAsWrittenIsPrefix | arpav_scraper_with_selenium.py:179-180 | As written, the missing-date list is exactly the days before the first day with data. |
| Tally.LaterGapUnrecorded | arpav_scraper_with_selenium.py:179-180 | For codes [1, 0], the list as written is empty, while the corrected list holds the second day. |
| Tally.MissingDays | arpav_scraper_with_selenium.py:179-180 | Corrected: only walked days are listed, no more of them than were walked, and all of them when every code is 0. |
| Tally.MissingDaysMembers | arpav_scraper_with_selenium.py:179-180 | Corrected: a date is listed iff some visited day of that date returned 0. |
| Tally.MissingDaysCount | arpav_scraper_with_selenium.py:176-180 | Corrected, with codes of at most 1: missing days plus the total of codes is the number of days. |
| Tally.TallyDays | arpav_scraper_with_selenium.py:164-180 | The loop's bookkeeping, adding each code to the running total and recording the day while that total is zero, returns the sum of the codes and the as-written missing list. |
| Tally.Summarize | arpav_scraper_with_selenium.py:183-186 | The percentage divides by zero iff nothing was collected and nothing is missing. Otherwise the missing share is at most the whole, and equals it iff nothing was collected. |
| Tally.AsWrittenSummaryDefined | arpav_scraper_with_selenium.py:183-186 | Even as written, one walked day is enough for the percentage to be defined. |
| Archive.RunVisitsADay | arpav_scraper_with_selenium.py:165-182 | A walk that ends normally visited at least one day. With none, the final close has no file. |
| Archive.SumIsTableDays | arpav_scraper_with_selenium.py:176-178 | With one code per day, 0 for pages without a table and 1 otherwise, the running total is the number of days with a table. |
| Archive.AsWrittenReport | arpav_scraper_with_selenium.py:176-186 | As written, on such codes for at least one day, the percentage is defined. Collected is the number of days with a table. The missing list is the days before the first day with a table. |
| Archive.CorrectedReport | arpav_scraper_with_selenium.py:176-186 | Corrected, on such codes, the percentage is defined. Collected is the number of days with a table, collected plus missing is the number of days, and a date is listed iff some day of that date had no table. |
| Archive.ScrapeArchive | arpav_scraper_with_selenium.py:162-188 | As written, the report fails with a walk error exactly when the walk raised, and then the error is the walk's own exception. |
| Archive.ArchiveReport | arpav_scraper_with_selenium.py:162-188 | As written, a walk that ends normally always yields a report. Collected is the number of visited days whose page had a table. The missing dates are the visited days before the first day with a table, so a later day without one is not listed. |
| Archive.ScrapeArchiveCorrected | arpav_scraper_with_selenium.py:162-188 | Corrected, the report fails with a walk error exactly when the walk raised, and then the error is the walk's own exception. |
| Archive.ArchiveReportCorrected | arpav_scraper_with_selenium.py:162-188 | Corrected, a walk that ends normally always yields a report. The missing dates are exactly the visited days whose page had no table, and collected plus missing equals the days visited. |

## Left out

- Selenium, the browser and the portal (`_select_day_date_on_archive_portal`, the driver, XPath lookups). A rendered page is a parameter; a missing element becomes an error of the model.
- `os.makedirs` and directories. Only file paths are tracked; directory creation never fails in the model.
- The `print` calls. Only the summary's numerator and denominator are kept; the floating-point percentage is not computed.
- The `OverflowError` of `datetime` past year 9999. Dates are unbounded naturals.
- `TableCell`, which the scripts never use, and the commented-out drafts in `arpav-web-scraper.py`.
- The `__main__` constants: start 2011-01-01, last year 2020 (365 * 9 = 3285 days in the older script) and the field names. The city "Belluno" is hard-coded in the scrape call instead (arpav_scraper_with_selenium.py:177, arpav-web-scraper.py:176). All of them are parameters of the model.
- The module-level `arpav_archives_dir` that `scrape_and_archive_data_by_year` reads instead of `self.arpav_archives_dir`. The model assumes both are the same root.
- Stability across re-runs follows from purity: every function here is deterministic in its inputs.
- Leap years: the walk covers `365 * years` days as written, so each leap day moves the end of the walk one day earlier. This is modelled, not corrected.
- The percentage's ZeroDivisionError is modelled, but the walk never reaches it: with no day walked, the final `close()` raises first (`Archive.RunVisitsADay`).

## Findings

| source | as written | input that shows it | evidently intended | confidence | as-written member | corrected member |
|---|---|---|---|---|---|---|
| arpav_scraper_with_selenium.py:179-180 | The day is recorded as missing when the running total `extracted_values` is 0. Only days before the first day with data can be recorded. | Two days with return codes 1 then 0: the second day has no table but is not listed. | Record a day when its own return code is 0. | high (not executed) | Tally.LaterGapUnrecorded | Archive.ArchiveReportCorrected |

=== FILE: archive.dfy ===
/** `scrape_and_archive_data_by_year` end to end: the walk over the days,
    then the tally of its return codes and the closing report. */
module Archive {
  import opened Basics
  import opened Calendar
  import opened Table
  import opened DateWalk
  import opened Tally

  /** Why no report was produced: the walk raised, or the percentage had
      nothing to divide by. */
  datatype ArchiveError = WalkFailed(walkError: WalkError) | SummaryFailed(summaryError: SummaryError)

  /** A walk that ends normally visited at least one day: with none, no file
      was ever opened and the final close raises. */
  lemma RunVisitsADay(root: string, city: string, render: Date -> Page, existing: set<string>, start: Date, lastYear: int)
    requires ValidDate(start)
    ensures Run(root, city, render, existing, start, lastYear).crash.None? ==> WalkLength(start, lastYear) > 0
  {
    if WalkLength(start, lastYear) == 0 {
      var cfg := Config(root, Scraper(city, render));
      assert WalkDays(cfg, Init(existing), VisitedDays(start, lastYear)) == Init(existing);
    }
  }

  /** The number of days among `ds` whose page had a table. */
  function TableDays(render: Date -> Page, ds: seq<Date>): (n: nat)
    ensures n <= |ds|
    decreases |ds|
  {
    if ds == [] then 0
    else TableDays(render, ds[..|ds| - 1]) + (if render(ds[|ds| - 1]).pollutantRow == [] then 0 else 1)
  }

  /** One return code per day: 0 when its page had no table, 1 otherwise. */
  predicate CodesOfPages(render: Date -> Page, ds: seq<Date>, codes: seq<nat>)
  {
    |codes| == |ds| && forall k :: 0 <= k < |ds| ==> codes[k] == (if render(ds[k]).pollutantRow == [] then 0 else 1)
  }

  /** The running total of such codes counts the days with a table. */
  lemma {:induction false} SumIsTableDays(render: Date -> Page, ds: seq<Date>, codes: seq<nat>)
    requires CodesOfPages(render, ds, codes)
    ensures Sum(codes) == TableDays(render, ds)
    decreases |ds|
  {
    if ds != [] {
      var init, cinit := ds[..|ds| - 1], codes[..|ds| - 1];
      assert CodesOfPages(render, init, cinit) by {
        forall k | 0 <= k < |init|
          ensures cinit[k] == (if render(init[k]).pollutantRow == [] then 0 else 1)
        {
          assert init[k] == ds[k] && cinit[k] == codes[k];
        }
      }
      SumIsTableDays(render, init, cinit);
    }
  }

  /** The report as written on the codes of the pages: defined, counting
      the days with a table, listing the days before the first one. */
  lemma AsWrittenReport(render: Date -> Page, ds: seq<Date>, codes: seq<nat>)
    requires CodesOfPages(render, ds, codes) && ds != []
    ensures var r := Summarize(Sum(codes), MissingAsWritten(ds, codes));
      && r.Success?
      && r.value.collected == TableDays(render, ds)
      && exists i :: 0 <= i <= |ds| && r.value.missing == ds[..i]
           && (forall k :: 0 <= k < i ==> render(ds[k]).pollutantRow == [])
           && (i < |ds| ==> render(ds[i]).pollutantRow != [])
  {
    SumIsTableDays(render, ds, codes);
    AsWrittenSummaryDefined(ds, codes);
    MissingAsWrittenIsPrefix(ds, codes);
    var i := FirstSuccess(codes);
    assert MissingAsWritten(ds, codes) == ds[..i];
  }

  /** The corrected report on the codes of the pages. */
  lemma CorrectedReport(render: Date -> Page, ds: seq<Date>, codes: seq<nat>)
    requires CodesOfPages(render, ds, codes) && ds != []
    ensures var r := Summarize(Sum(codes), MissingDays(ds, codes));
      && r.Success?
      && r.value.collected == TableDays(render, ds)
      && r.value.collected + |r.value.missing| == |ds|
      && forall d :: d in r.value.missing <==>
           exists k :: 0 <= k < |ds| && ds[k] == d && render(ds[k]).pollutantRow == []
  {
    SumIsTableDays(render, ds, codes);
    MissingDaysCount(ds, codes);
    MissingDaysMembers(ds, codes);
  }

  /** A walk that ends normally has the codes of its pages. */
  lemma RunCodesOfPages(root: string, city: string, render: Date -> Page, existing: set<string>, start: Date, lastYear: int)
    requires ValidDate(start)
    ensures var st := Run(root, city, render, existing, start, lastYear);
      st.crash.None? ==> CodesOfPages(render, VisitedDays(start, lastYear), st.codes)
  {
    RunCodes(root, city, render, existing, start, lastYear);
  }

  /** `scrape_and_archive_data_by_year` as written: the walk, then the
      report on the values collected and the dates recorded while the
      running total of return codes is still zero. */
  function ScrapeArchive(root: string, city: string, render: Date -> Page, existing: set<string>, start: Date, lastYear: int): (r: Result<Summary, ArchiveError>)
    requires ValidDate(start)
    ensures var st := Run(root, city, render, existing, start, lastYear);
      r.Failure? && r.error.WalkFailed? <==> st.crash.Some?
    ensures var st := Run(root, city, render, existing, start, lastYear);
      st.crash.Some? ==> r == Failure(WalkFailed(st.crash.value))
  {
    var st := Run(root, city, render, existing, start, lastYear);
    if st.crash.Some? then Failure(WalkFailed(st.crash.value))
    else
      RunCodes(root, city, render, existing, start, lastYear);
      match Summarize(Sum(st.codes), MissingAsWritten(VisitedDays(start, lastYear), st.codes))
      case Failure(e) => Failure(SummaryFailed(e))
      case Success(s) => Success(s)
  }

  /** As written, a walk that ends normally always yields a report. It counts
      the days whose page had a table, and its missing dates are the days
      before the first day with a table: a later day without one is not listed. */
  lemma ArchiveReport(root: string, city: string, render: Date -> Page, existing: set<string>, start: Date, lastYear: int)
    requires ValidDate(start)
    ensures var r := ScrapeArchive(root, city, render, existing, start, lastYear);
      var ds := VisitedDays(start, lastYear);
      Run(root, city, render, existing, start, lastYear).crash.None? ==>
        && r.Success?
        && r.value.collected == TableDays(render, ds)
        && exists i :: 0 <= i <= |ds| && r.value.missing == ds[..i]
             && (forall k :: 0 <= k < i ==> render(ds[k]).pollutantRow == [])
             && (i < |ds| ==> render(ds[i]).pollutantRow != [])
  {
    var st := Run(root, city, render, existing, start, lastYear);
    var ds := VisitedDays(start, lastYear);
    if st.crash.None? {
      RunCodesOfPages(root, city, render, existing, start, lastYear);
      RunVisitsADay(root, city, render, existing, start, lastYear);
      AsWrittenReport(render, ds, st.codes);
    }
  }

  /** The report with a day listed as missing by its own code. */
  function ScrapeArchiveCorrected(root: string, city: string, render: Date -> Page, existing: set<string>, start: Date, lastYear: int): (r: Result<Summary, ArchiveError>)
    requires ValidDate(start)
    ensures var st := Run(root, city, render, existing, start, lastYear);
      r.Failure? && r.error.WalkFailed? <==> st.crash.Some?
    ensures var st := Run(root, city, render, existing, start, lastYear);
      st.crash.Some? ==> r == Failure(WalkFailed(st.crash.value))
  {
    var st := Run(root, city, render, existing, start, lastYear);
    if st.crash.Some? then Failure(WalkFailed(st.crash.value))
    else
      RunCodes(root, city, render, existing, start, lastYear);
      match Summarize(Sum(st.codes), MissingDays(VisitedDays(start, lastYear), st.codes))
      case Failure(e) => Failure(SummaryFailed(e))
      case Success(s) => Success(s)
  }

  /** Corrected, a walk that ends normally always yields a report. Its
      missing dates are exactly the visited days whose page had no table,
      and every visited day is counted once: among the values collected or
      among the missing. */
  lemma ArchiveReportCorrected(root: string, city: string, render: Date -> Page, existing: set<string>, start: Date, lastYear: int)
    requires ValidDate(start)
    ensures var r := ScrapeArchiveCorrected(root, city, render, existing, start, lastYear);
      var ds := VisitedDays(start, lastYear);
      Run(root, city, render, existing, start, lastYear).crash.None? ==>
        && r.Success?
        && r.value.collected == TableDays(render, ds)
        && r.value.collected + |r.value.missing| == |ds|
        && forall d :: d in r.value.missing <==>
             exists k :: 0 <= k < |ds| && ds[k] == d && render(ds[k]).pollutantRow == []
  {
    var st := Run(root, city, render, existing, start, lastYear);
    var ds := VisitedDays(start, lastYear);
    if st.crash.None? {
      RunCodesOfPages(root, city, render, existing, start, lastYear);
      RunVisitsADay(root, city, render, existing, start, lastYear);
      CorrectedReport(render, ds, st.codes);
    }
  }
}

=== FILE: basics.dfy ===
/** Failure-carrying datatypes and small sequence facts shared by the
    scraper model. */
module Basics {

  /** A value that may be absent: a dictionary key the scraper never set,
      a nested element a header cell does not have, a file that is not open. */
  datatype Option<+T> = None | Some(value: T)

  /** The outcome of a step that can raise: `Failure` carries what the
      Python code would have raised instead of returning. */
  datatype Result<+R, +E> = Success(value: R) | Failure(error: E)

  function Max(a: int, b: int): int
  {
    if a < b then b else a
  }

  /** An initial segment of an initial segment is an initial segment. */
  lemma PrefixTrans<T>(a: seq<T>, b: seq<T>, c: seq<T>)
    requires |a| <= |b| && b[..|a|] == a
    requires |b| <= |c| && c[..|b|] == b
    ensures c[..|a|] == a
  {
    assert c[..|a|] == c[..|b|][..|a|];
  }
}

=== FILE: calendar.dfy ===
/** The proleptic Gregorian calendar of Python's `datetime`, reduced to what
    the date walk needs: one-day steps and the (year, month) a day falls in. */
module Calendar {

  datatype Date = Date(year: nat, month: nat, day: nat)

  predicate IsLeapYear(y: nat)
  {
    y % 4 == 0 && (y % 100 != 0 || y % 400 == 0)
  }

  function DaysInMonth(y: nat, m: nat): (n: nat)
    requires 1 <= m <= 12
    ensures 28 <= n <= 31
  {
    if m == 2 then (if IsLeapYear(y) then 29 else 28)
    else if m == 4 || m == 6 || m == 9 || m == 11 then 30
    else 31
  }

  predicate ValidDate(d: Date)
  {
    1 <= d.year && 1 <= d.month <= 12 && 1 <= d.day <= DaysInMonth(d.year, d.month)
  }

  /** Strict chronological order, which on valid dates is the lexicographic
      order of (year, month, day). */
  predicate Before(a: Date, b: Date)
  {
    a.year < b.year
    || (a.year == b.year && a.month < b.month)
    || (a.year == b.year && a.month == b.month && a.day < b.day)
  }

  /** Months counted from year 0: two days share a month file exactly when
      their keys are equal. */
  function MonthKey(d: Date): int
  {
    12 * d.year + d.month
  }

  /** Dates with months in range share a month key only when they share
      their year and month. */
  lemma MonthKeyInjective(a: Date, b: Date)
    requires 1 <= a.month <= 12 && 1 <= b.month <= 12
    ensures MonthKey(a) == MonthKey(b) ==> a.year == b.year && a.month == b.month
  {
  }

  /** `d + timedelta(days=1)`. */
  function NextDay(d: Date): (r: Date)
    requires ValidDate(d)
    ensures ValidDate(r)
    ensures Before(d, r)
    ensures MonthKey(r) == MonthKey(d) || (MonthKey(r) == MonthKey(d) + 1 && r.day == 1)
  {
    if d.day < DaysInMonth(d.year, d.month) then Date(d.year, d.month, d.day + 1)
    else if d.month < 12 then Date(d.year, d.month + 1, 1)
    else Date(d.year + 1, 1, 1)
  }

  /** No valid date lies strictly between a date and its successor. */
  lemma NextDayIsSuccessor(d: Date, e: Date)
    requires ValidDate(d) && ValidDate(e)
    ensures Before(d, e) ==> !Before(e, NextDay(d))
  {
  }

  /** `d + timedelta(days=n)`. */
  function AddDays(d: Date, n: nat): (r: Date)
    requires ValidDate(d)
    ensures ValidDate(r)
    ensures n > 0 ==> Before(d, r)
    decreases n
  {
    if n == 0 then d else NextDay(AddDays(d, n - 1))
  }

  lemma {:induction false} AddDaysMonthMonotone(d: Date, a: nat, b: nat)
    requires ValidDate(d)
    requires a <= b
    ensures MonthKey(AddDays(d, a)) <= MonthKey(AddDays(d, b))
    decreases b
  {
    if a < b {
      AddDaysMonthMonotone(d, a, b - 1);
    }
  }

  /** `range(365 * (last_year - start.year))`: a negative count is an empty range. */
  function WalkLength(start: Date, lastYear: int): (n: nat)
    ensures lastYear <= start.year ==> n == 0
    ensures start.year < lastYear ==> n == 365 * (lastYear - start.year)
  {
    if start.year < lastYear then 365 * (lastYear - start.year) else 0
  }

  /** The days the walk visits: `start + timedelta(days=day_id)` for each `day_id`. */
  function VisitedDays(start: Date, lastYear: int): (ds: seq<Date>)
    requires ValidDate(start)
    ensures |ds| == WalkLength(start, lastYear)
    ensures |ds| > 0 ==> ds[0] == start
    ensures forall k :: 0 <= k < |ds| ==> ValidDate(ds[k])
    ensures forall k :: 0 < k < |ds| ==> ds[k] == NextDay(ds[k - 1])
  {
    seq(WalkLength(start, lastYear), k requires 0 <= k => AddDays(start, k))
  }

  /** Months never go backwards along the walk, so every month is one
      contiguous run of days. */
  lemma VisitedDaysMonthsOrdered(start: Date, lastYear: int)
    requires ValidDate(start)
    ensures var ds := VisitedDays(start, lastYear);
      forall a, b :: 0 <= a <= b < |ds| ==> MonthKey(ds[a]) <= MonthKey(ds[b])
  {
    var ds := VisitedDays(start, lastYear);
    forall a, b | 0 <= a <= b < |ds|
      ensures MonthKey(ds[a]) <= MonthKey(ds[b])
    {
      AddDaysMonthMonotone(start, a, b);
    }
  }
}

=== FILE: decimal.dfy ===
/** Decimal rendering of natural numbers, as Python's `str(n)` and
    `'{:02d}'.format(n)` produce it, and its inverse. */
module Decimal {

  predicate IsDigit(c: char)
  {
    '0' <= c <= '9'
  }

  predicate AllDigits(s: string)
  {
    forall i :: 0 <= i < |s| ==> IsDigit(s[i])
  }

  function DigitValue(c: char): (n: nat)
    requires IsDigit(c)
    ensures n < 10
  {
    c as int - '0' as int
  }

  function DigitChar(n: nat): (c: char)
    requires n < 10
    ensures IsDigit(c) && DigitValue(c) == n
  {
    (n + '0' as int) as char
  }

  /** `str(n)` for a non-negative integer: digits, most significant first,
      without leading zeros. */
  function DecimalString(n: nat): (s: string)
    ensures AllDigits(s)
    ensures 1 <= |s|
    ensures n < 10 ==> |s| == 1
    ensures 10 <= n < 100 ==> |s| == 2
    ensures 10 <= n ==> 2 <= |s|
    ensures n > 0 ==> s[0] != '0'
    decreases n
  {
    if n < 10 then [DigitChar(n)] else DecimalString(n / 10) + [DigitChar(n % 10)]
  }

  /** Reads a string of decimal digits back as a number (leading zeros allowed). */
  function ParseDecimal(s: string): nat
    requires AllDigits(s)
  {
    if s == [] then 0 else 10 * ParseDecimal(s[..|s| - 1]) + DigitValue(s[|s| - 1])
  }

  lemma {:induction false} ParseDecimalString(n: nat)
    ensures ParseDecimal(DecimalString(n)) == n
    decreases n
  {
    if n >= 10 {
      var s := DecimalString(n);
      assert s[..|s| - 1] == DecimalString(n / 10);
      ParseDecimalString(n / 10);
    }
  }

  lemma DecimalStringInjective(a: nat, b: nat)
    ensures DecimalString(a) == DecimalString(b) ==> a == b
  {
    ParseDecimalString(a);
    ParseDecimalString(b);
  }

  lemma {:induction false} ParseLeadingZero(s: string)
    requires AllDigits(s)
    ensures AllDigits("0" + s)
    ensures ParseDecimal("0" + s) == ParseDecimal(s)
    decreases |s|
  {
    if s != [] {
      var t := "0" + s;
      assert t[..|t| - 1] == "0" + s[..|s| - 1];
      ParseLeadingZero(s[..|s| - 1]);
    }
  }

  /** `'{:02d}'.format(n)`: at least two digits, padded on the left with zeros. */
  function ZeroPad2(n: nat): (s: string)
    ensures AllDigits(s)
    ensures 2 <= |s|
    ensures n < 100 ==> |s| == 2
    ensures ParseDecimal(s) == n
    ensures 10 <= n ==> s == DecimalString(n)
  {
    ParseDecimalString(n);
    if n < 10 then
      ParseLeadingZero(DecimalString(n));
      "0" + DecimalString(n)
    else
      DecimalString(n)
  }
}

=== FILE: form.dfy ===
/** The values typed into the archive portal's selection form. */
module Form {
  import opened Decimal
  import opened Calendar

  /** The four combo boxes of the form, by their `name` attribute. */
  datatype FormValues = FormValues(provincia: string, giorno: string, mese: string, anno: string)

  /** `_set_values_combo_box`: the province is the city name as given, day
      and month are two-digit zero-padded, the year is plain decimal. */
  function ComboBoxValues(city: string, d: Date): (f: FormValues)
    ensures f.provincia == city
    ensures AllDigits(f.giorno) && ParseDecimal(f.giorno) == d.day
    ensures AllDigits(f.mese) && ParseDecimal(f.mese) == d.month
    ensures ValidDate(d) ==> |f.giorno| == 2 && |f.mese| == 2
    ensures AllDigits(f.anno) && ParseDecimal(f.anno) == d.year
    ensures d.year > 0 ==> f.anno[0] != '0'
  {
    ParseDecimalString(d.year);
    FormValues(city, ZeroPad2(d.day), ZeroPad2(d.month), DecimalString(d.year))
  }

  /** The form determines the date it was filled from. */
  lemma ComboBoxValuesInjective(city1: string, d1: Date, city2: string, d2: Date)
    ensures ComboBoxValues(city1, d1) == ComboBoxValues(city2, d2) ==> city1 == city2 && d1 == d2
  {
  }
}

=== FILE: linker.dfy ===
/** Reconstruction of the table's three-level header from the x-coordinates
    of rendered cells: each cell of a lower header row is tagged with the cell
    of the row above whose horizontal interval contains it. */
module Linker {
  import opened Basics

  /** A rendered header cell: its text and the x-coordinate of its left edge. */
  datatype HeaderCell = HeaderCell(text: string, x: int)

  /** A measurement-kind cell after linking. `pollutant` is None when the
      linking loop found no covering pollutant and never set the key. */
  datatype KindCell = KindCell(text: string, x: int, pollutant: Option<string>)

  /** The two keys the unit linker copies, always together, from one kind cell. */
  datatype ColumnOwner = ColumnOwner(kind: string, pollutant: string)

  /** A measurement-unit cell after linking; `owner` is None when no kind
      cell covers it. */
  datatype UnitCell = UnitCell(text: string, x: int, owner: Option<ColumnOwner>)

  /** The unit linker raised a KeyError: unit `unit` is covered by kind
      `kind`, which itself was left without a pollutant. */
  datatype LinkError = UnlinkedKind(unit: nat, kind: nat)

  function Starts(cells: seq<HeaderCell>): (xs: seq<int>)
    ensures |xs| == |cells|
    ensures forall j :: 0 <= j < |cells| ==> xs[j] == cells[j].x
  {
    seq(|cells|, j requires 0 <= j < |cells| => cells[j].x)
  }

  /** Linked kind cells as the header cells the unit linker compares against. */
  function KindHeaders(kinds: seq<KindCell>): (cells: seq<HeaderCell>)
    ensures |cells| == |kinds|
    ensures forall j :: 0 <= j < |kinds| ==> cells[j].text == kinds[j].text && cells[j].x == kinds[j].x
  {
    seq(|kinds|, j requires 0 <= j < |kinds| => HeaderCell(kinds[j].text, kinds[j].x))
  }

  /** The test one iteration of the inner linking loop performs for ancestor
      `j`: `xs[j] <= x < xs[j+1]`, where a missing `xs[j+1]` (the IndexError
      branch, reached only once `xs[j] <= x` has held) counts as no upper bound. */
  predicate Covers(xs: seq<int>, j: nat, x: int)
    requires j < |xs|
  {
    xs[j] <= x && (j + 1 == |xs| || x < xs[j + 1])
  }

  /** The inner loop from ancestor `j` on: the first covering ancestor in
      list order, where the loop breaks, or None if it runs to the end. */
  function FirstCoverFrom(xs: seq<int>, x: int, j: nat): (r: Option<nat>)
    requires j <= |xs|
    ensures r.Some? ==> j <= r.value < |xs| && Covers(xs, r.value, x)
    ensures r.Some? ==> forall k :: j <= k < r.value ==> !Covers(xs, k, x)
    ensures r.None? ==> forall k :: j <= k < |xs| ==> !Covers(xs, k, x)
    decreases |xs| - j
  {
    if j == |xs| then None
    else if Covers(xs, j, x) then Some(j)
    else FirstCoverFrom(xs, x, j + 1)
  }

  /** The ancestor a child at `x` is linked to, if any. */
  function FirstCover(xs: seq<int>, x: int): (r: Option<nat>)
    ensures r.Some? ==> r.value < |xs| && Covers(xs, r.value, x)
    ensures r.Some? ==> forall k :: 0 <= k < r.value ==> !Covers(xs, k, x)
    ensures r.None? ==> forall k :: 0 <= k < |xs| ==> !Covers(xs, k, x)
  {
    FirstCoverFrom(xs, x, 0)
  }

  /** Walking right from any ancestor starting at or before `x` reaches one
      that covers `x`: the last ancestor always covers what is right of it. */
  lemma {:induction false} CoverExistsFrom(xs: seq<int>, x: int, j: nat)
    requires j < |xs| && xs[j] <= x
    ensures exists k :: j <= k < |xs| && Covers(xs, k, x)
    decreases |xs| - j
  {
    if !Covers(xs, j, x) {
      CoverExistsFrom(xs, x, j + 1);
    }
  }

  /** A child is left unlinked exactly when it lies left of every ancestor
      start; this holds whether or not the ancestors are sorted. */
  lemma UnlinkedIffLeftOfAll(xs: seq<int>, x: int)
    ensures FirstCover(xs, x).None? <==> forall j :: 0 <= j < |xs| ==> x < xs[j]
  {
    if exists j :: 0 <= j < |xs| && xs[j] <= x {
      var j :| 0 <= j < |xs| && xs[j] <= x;
      CoverExistsFrom(xs, x, j);
    }
  }

  predicate StrictlyIncreasing(xs: seq<int>)
  {
    forall a, b :: 0 <= a < b < |xs| ==> xs[a] < xs[b]
  }

  /** Ancestor `k` has the greatest start that is not right of `x`. */
  predicate GreatestStartAtMost(xs: seq<int>, x: int, k: nat)
  {
    k < |xs| && xs[k] <= x && forall m :: k < m < |xs| ==> x < xs[m]
  }

  /** On sorted starts, covering is exactly having the greatest start at most `x`. */
  lemma CoversIffGreatestStart(xs: seq<int>, x: int, k: nat)
    requires StrictlyIncreasing(xs)
    requires k < |xs|
    ensures Covers(xs, k, x) <==> GreatestStartAtMost(xs, x, k)
  {
  }

  /** With strictly increasing ancestor starts, a child is linked to `k`
      exactly when `k` has the greatest start at most the child's x. */
  lemma LinkedToGreatestStart(xs: seq<int>, x: int, k: nat)
    requires StrictlyIncreasing(xs)
    ensures FirstCover(xs, x) == Some(k) <==> GreatestStartAtMost(xs, x, k)
  {
    if GreatestStartAtMost(xs, x, k) {
      CoversIffGreatestStart(xs, x, k);
      var r := FirstCover(xs, x);
      assert r.Some? by { UnlinkedIffLeftOfAll(xs, x); }
      CoversIffGreatestStart(xs, x, r.value);
    }
    var r := FirstCover(xs, x);
    if r == Some(k) {
      CoversIffGreatestStart(xs, x, k);
    }
  }

  /** With sorted starts, a child is linked to exactly one ancestor iff it is
      not left of the first one. */
  lemma LinkedIffNotLeftOfFirst(xs: seq<int>, x: int)
    requires StrictlyIncreasing(xs)
    ensures FirstCover(xs, x).Some? <==> (0 < |xs| && xs[0] <= x)
  {
    UnlinkedIffLeftOfAll(xs, x);
  }

  /** Intervals are closed on the left and open on the right: a child at
      exactly ancestor `j`'s start goes to `j`, one just left of it to `j - 1`. */
  lemma TieGoesToLaterAncestor(xs: seq<int>, j: nat)
    requires StrictlyIncreasing(xs)
    requires j < |xs|
    ensures FirstCover(xs, xs[j]) == Some(j)
    ensures 0 < j ==> FirstCover(xs, xs[j] - 1) == Some(j - 1)
  {
    LinkedToGreatestStart(xs, xs[j], j);
    if 0 < j {
      LinkedToGreatestStart(xs, xs[j] - 1, j - 1);
    }
  }

  /** Everything at or right of the last ancestor's start goes to the last ancestor. */
  lemma RightOfLastGoesToLast(xs: seq<int>, x: int)
    requires StrictlyIncreasing(xs)
    requires 0 < |xs| && xs[|xs| - 1] <= x
    ensures FirstCover(xs, x) == Some(|xs| - 1)
  {
    LinkedToGreatestStart(xs, x, |xs| - 1);
  }

  /** With a single ancestor the only question is whether the child is left of it. */
  lemma SingleAncestor(xs: seq<int>, x: int)
    requires |xs| == 1
    ensures FirstCover(xs, x) == (if xs[0] <= x then Some(0) else None)
  {
  }

  /** `_link_meas_info_to_pollutant_columns` for one kind cell. */
  function LinkKind(pollutants: seq<HeaderCell>, c: HeaderCell): (r: KindCell)
    ensures r.text == c.text && r.x == c.x
    ensures r.pollutant.None? <==> forall j :: 0 <= j < |pollutants| ==> c.x < pollutants[j].x
    ensures r.pollutant.Some? ==>
      exists j :: 0 <= j < |pollutants| && Covers(Starts(pollutants), j, c.x)
        && r.pollutant.value == pollutants[j].text
    ensures r.pollutant.Some? ==>
      exists j :: FirstCover(Starts(pollutants), c.x) == Some(j) && r.pollutant.value == pollutants[j].text
  {
    var xs := Starts(pollutants);
    UnlinkedIffLeftOfAll(xs, c.x);
    match FirstCover(xs, c.x)
    case None => KindCell(c.text, c.x, None)
    case Some(j) => KindCell(c.text, c.x, Some(pollutants[j].text))
  }

  /** `_link_meas_info_to_pollutant_columns`: every kind cell keeps its text and
      position and gains the text of the pollutant whose interval holds it. */
  function LinkKinds(pollutants: seq<HeaderCell>, kinds: seq<HeaderCell>): (r: seq<KindCell>)
    ensures |r| == |kinds|
    ensures forall i :: 0 <= i < |kinds| ==> r[i] == LinkKind(pollutants, kinds[i])
    ensures KindHeaders(r) == kinds
  {
    seq(|kinds|, i requires 0 <= i < |kinds| => LinkKind(pollutants, kinds[i]))
  }

  /** With sorted pollutant starts, each kind cell not left of the first
      pollutant carries the text of the pollutant with the greatest start at
      most its own x; the others carry none. */
  lemma LinkKindsSorted(pollutants: seq<HeaderCell>, kinds: seq<HeaderCell>, i: nat, k: nat)
    requires StrictlyIncreasing(Starts(pollutants))
    requires i < |kinds|
    ensures GreatestStartAtMost(Starts(pollutants), kinds[i].x, k) ==>
      LinkKinds(pollutants, kinds)[i].pollutant == Some(pollutants[k].text)
    ensures LinkKinds(pollutants, kinds)[i].pollutant.None? <==>
      (|pollutants| == 0 || kinds[i].x < pollutants[0].x)
  {
    var xs := Starts(pollutants);
    LinkedToGreatestStart(xs, kinds[i].x, k);
    LinkedIffNotLeftOfFirst(xs, kinds[i].x);
  }

  /** `_link_meas_units_to_meas_info_columns` for one unit cell: Failure(j)
      when the covering kind `j` has no pollutant key. */
  function LinkUnit(kinds: seq<KindCell>, u: HeaderCell): (r: Result<UnitCell, nat>)
    ensures r.Success? ==> r.value.text == u.text && r.value.x == u.x
    ensures r.Success? ==> (r.value.owner.None? <==> forall j :: 0 <= j < |kinds| ==> u.x < kinds[j].x)
    ensures r.Success? && r.value.owner.Some? ==>
      var j := FirstCover(Starts(KindHeaders(kinds)), u.x);
      && j.Some?
      && kinds[j.value].pollutant == Some(r.value.owner.value.pollutant)
      && kinds[j.value].text == r.value.owner.value.kind
    ensures r.Failure? ==>
      FirstCover(Starts(KindHeaders(kinds)), u.x) == Some(r.error) && kinds[r.error].pollutant.None?
  {
    var xs := Starts(KindHeaders(kinds));
    UnlinkedIffLeftOfAll(xs, u.x);
    match FirstCover(xs, u.x)
    case None => Success(UnitCell(u.text, u.x, None))
    case Some(j) =>
      match kinds[j].pollutant
      case None => Failure(j)
      case Some(p) => Success(UnitCell(u.text, u.x, Some(ColumnOwner(kinds[j].text, p))))
  }

  /** The outer loop of the unit linker from unit `i` on: it stops at the
      first unit whose covering kind cell is unlinked. */
  function LinkUnitsFrom(kinds: seq<KindCell>, units: seq<HeaderCell>, i: nat): (r: Result<seq<UnitCell>, LinkError>)
    requires i <= |units|
    ensures r.Success? ==> |r.value| == |units| - i
    ensures r.Success? ==> forall k :: i <= k < |units| ==> LinkUnit(kinds, units[k]) == Success(r.value[k - i])
    ensures r.Failure? ==>
      && i <= r.error.unit < |units|
      && LinkUnit(kinds, units[r.error.unit]) == Failure(r.error.kind)
      && forall k :: i <= k < r.error.unit ==> LinkUnit(kinds, units[k]).Success?
    decreases |units| - i
  {
    if i == |units| then Success([])
    else
      var head := LinkUnit(kinds, units[i]);
      if head.Failure? then Failure(UnlinkedKind(i, head.error))
      else
        var tail := LinkUnitsFrom(kinds, units, i + 1);
        if tail.Failure? then tail
        else
          Success([head.value] + tail.value)
  }

  /** `_link_meas_units_to_meas_info_columns`. */
  function LinkUnits(kinds: seq<KindCell>, units: seq<HeaderCell>): (r: Result<seq<UnitCell>, LinkError>)
    ensures r.Success? ==> |r.value| == |units|
    ensures r.Success? ==> forall k :: 0 <= k < |units| ==> LinkUnit(kinds, units[k]) == Success(r.value[k])
    ensures r.Failure? ==> r.error.unit < |units| && LinkUnit(kinds, units[r.error.unit]) == Failure(r.error.kind)
    ensures r.Failure? ==> forall k :: 0 <= k < r.error.unit ==> LinkUnit(kinds, units[k]).Success?
  {
    LinkUnitsFrom(kinds, units, 0)
  }

  /** The unit linker succeeds exactly when no unit lies under a kind cell
      that was itself left without a pollutant. */
  lemma LinkUnitsSucceedsIffKindsLinked(kinds: seq<KindCell>, units: seq<HeaderCell>)
    ensures LinkUnits(kinds, units).Success? <==>
      forall k :: 0 <= k < |units| ==>
        match FirstCover(Starts(KindHeaders(kinds)), units[k].x)
        case None => true
        case Some(j) => kinds[j].pollutant.Some?
  {
  }
}

=== FILE: paths.dfy ===
/** The per-month archive file layout:
    `<root>/<year>/<month>/<year>_<month>_arpav_data.csv`, year and month
    in plain decimal. */
module ArchivePaths {
  import opened Decimal

  predicate NoSlash(s: string)
  {
    forall i :: 0 <= i < |s| ==> s[i] != '/'
  }

  /** POSIX `os.path.join(a, b)`: an absolute `b` replaces `a`; otherwise one
      separator is inserted unless `a` is empty or already ends with one. */
  function JoinPath(a: string, b: string): (r: string)
    ensures |b| <= |r| && r[|r| - |b|..] == b
    ensures (|b| == 0 || b[0] != '/') ==> |a| <= |r| && r[..|a|] == a
    ensures (|b| == 0 || b[0] != '/') ==> |r| <= |a| + 1 + |b|
  {
    if 0 < |b| && b[0] == '/' then b
    else if a == "" || a[|a| - 1] == '/' then a + b
    else a + "/" + b
  }

  /** What `os.path.join` puts in front of a relative component: `a` itself
      when it is empty or ends with a separator, otherwise `a` and one '/'. */
  function JoinPrefix(a: string): string
  {
    if a == "" || a[|a| - 1] == '/' then a else a + "/"
  }

  /** The exact shape of `os.path.join(a, b)`: an absolute `b` is the whole
      result; a relative one follows `a` and at most one inserted '/'. */
  lemma JoinPathShape(a: string, b: string)
    ensures 0 < |b| && b[0] == '/' ==> JoinPath(a, b) == b
    ensures (|b| == 0 || b[0] != '/') ==> JoinPath(a, b) == JoinPrefix(a) + b
    ensures |JoinPrefix(a)| <= |a| + 1 && JoinPrefix(a)[..|a|] == a
    ensures |JoinPrefix(a)| == |a| + 1 <==> a != "" && a[|a| - 1] != '/'
    ensures |JoinPrefix(a)| == |a| + 1 ==> JoinPrefix(a)[|a|] == '/'
  {
  }

  /** The relative case of `JoinPathShape` alone, which keeps the month path
      proofs small. */
  lemma JoinRelative(a: string, b: string)
    requires 0 < |b| && b[0] != '/'
    ensures JoinPath(a, b) == JoinPrefix(a) + b
  {
  }

  function MonthDir(year: nat, month: nat): string
  {
    DecimalString(year) + "/" + DecimalString(month)
  }

  function MonthFileName(year: nat, month: nat): string
  {
    DecimalString(year) + "_" + DecimalString(month) + "_arpav_data.csv"
  }

  /** The part of a month path below the root. */
  function MonthRelative(year: nat, month: nat): string
  {
    MonthDir(year, month) + "/" + MonthFileName(year, month)
  }

  /** The month file as the inline loop builds it: one join of the root with
      `'<year>/<month>/<year>_<month>_arpav_data.csv'`. */
  function MonthPath(root: string, year: nat, month: nat): string
  {
    JoinPath(root, MonthRelative(year, month))
  }

  /** The month file is the root, a separator unless the root is empty or
      already ends with one, and the month's relative path. */
  lemma MonthPathJoin(root: string, year: nat, month: nat)
    ensures MonthPath(root, year, month) == JoinPrefix(root) + MonthRelative(year, month)
  {
    var r := MonthRelative(year, month);
    assert r[0] == DecimalString(year)[0];
  }

  /** The month file as `DataArchive` builds it: a three-argument join of
      the root, `'<year>/<month>'` and the file name. Whatever the root, it
      names the same file as the inline loop. */
  function SeleniumMonthPath(root: string, year: nat, month: nat): (p: string)
    ensures p == MonthPath(root, year, month)
  {
    var y, m := DecimalString(year), DecimalString(month);
    var dir := MonthDir(year, month);
    var name := MonthFileName(year, month);
    assert dir == y + "/" + m;
    assert name == y + "_" + m + "_arpav_data.csv";
    assert dir[0] == y[0] && name[0] == y[0] && IsDigit(y[0]);
    assert dir[|dir| - 1] == m[|m| - 1];
    assert m[|m| - 1] != '/' by { DecimalNoSlash(month); }
    JoinTwice(root, dir, name);
    assert dir + "/" + name == MonthRelative(year, month);
    JoinPath(JoinPath(root, dir), name)
  }

  lemma DecimalNoSlash(n: nat)
    ensures NoSlash(DecimalString(n))
  {
    var s := DecimalString(n);
    forall i | 0 <= i < |s|
      ensures s[i] != '/'
    {
      assert IsDigit(s[i]);
    }
  }

  /** Joining a directory and then a name is one join of `dir/name`, when
      neither is absolute and the directory has no trailing separator. */
  lemma JoinTwice(root: string, dir: string, name: string)
    requires 0 < |dir| && dir[0] != '/' && dir[|dir| - 1] != '/'
    requires 0 < |name| && name[0] != '/'
    ensures JoinPath(JoinPath(root, dir), name) == JoinPath(root, dir + "/" + name)
  {
    JoinRelative(root, dir);
    JoinRelative(root, dir + "/" + name);
    var joined := JoinPath(root, dir);
    assert joined[|joined| - 1] == dir[|dir| - 1];
    assert JoinPath(joined, name) == joined + "/" + name;
  }

  /** Index of the first slash at or after `i`, or `|s|` if there is none. */
  function FirstSlashFrom(s: string, i: nat): (k: nat)
    requires i <= |s|
    ensures i <= k <= |s|
    decreases |s| - i
  {
    if i == |s| then |s| else if s[i] == '/' then i else FirstSlashFrom(s, i + 1)
  }

  lemma {:induction false} FirstSlashAfter(a: string, b: string, i: nat)
    requires NoSlash(a) && i <= |a|
    ensures FirstSlashFrom(a + "/" + b, i) == |a|
    decreases |a| - i
  {
    var s := a + "/" + b;
    if i < |a| {
      assert s[i] == a[i];
      FirstSlashAfter(a, b, i + 1);
    } else {
      assert s[i] == '/';
    }
  }

  /** A string split at its first slash has only one way to be split. */
  lemma SplitAtFirstSlash(a: string, b: string, c: string, d: string)
    requires NoSlash(a) && NoSlash(c)
    requires a + "/" + b == c + "/" + d
    ensures a == c && b == d
  {
    var s := a + "/" + b;
    FirstSlashAfter(a, b, 0);
    FirstSlashAfter(c, d, 0);
    assert a == s[..|a|];
    assert c == (c + "/" + d)[..|c|];
    assert b == s[|a| + 1..];
    assert d == (c + "/" + d)[|c| + 1..];
  }

  /** A month path below the root, split at its first two separators. */
  lemma MonthRelativeShape(year: nat, month: nat)
    ensures MonthRelative(year, month) ==
      DecimalString(year) + "/" + (DecimalString(month) + "/" + MonthFileName(year, month))
    ensures NoSlash(DecimalString(year)) && NoSlash(DecimalString(month))
  {
    DecimalNoSlash(year);
    DecimalNoSlash(month);
  }

  lemma MonthRelativeInjective(y1: nat, m1: nat, y2: nat, m2: nat)
    requires MonthRelative(y1, m1) == MonthRelative(y2, m2)
    ensures y1 == y2 && m1 == m2
  {
    MonthRelativeShape(y1, m1);
    MonthRelativeShape(y2, m2);
    var y1s, y2s := DecimalString(y1), DecimalString(y2);
    var m1s, m2s := DecimalString(m1), DecimalString(m2);
    var f1, f2 := MonthFileName(y1, m1), MonthFileName(y2, m2);
    SplitAtFirstSlash(y1s, m1s + "/" + f1, y2s, m2s + "/" + f2);
    SplitAtFirstSlash(m1s, f1, m2s, f2);
    DecimalStringInjective(y1, y2);
    DecimalStringInjective(m1, m2);
  }

  /** Distinct months are written to distinct files under the same root. */
  lemma MonthPathInjective(root: string, y1: nat, m1: nat, y2: nat, m2: nat)
    ensures MonthPath(root, y1, m1) == MonthPath(root, y2, m2) ==> y1 == y2 && m1 == m2
  {
    if MonthPath(root, y1, m1) == MonthPath(root, y2, m2) {
      MonthPathJoin(root, y1, m1);
      MonthPathJoin(root, y2, m2);
      var p := JoinPrefix(root);
      assert MonthRelative(y1, m1) == (p + MonthRelative(y1, m1))[|p|..];
      assert MonthRelative(y2, m2) == (p + MonthRelative(y2, m2))[|p|..];
      MonthRelativeInjective(y1, m1, y2, m2);
    }
  }
}

=== FILE: table.dfy ===
/** Flattening of one rendered bulletin table into readings, one per
    (measurement-unit column, station row), in the order the scraper writes them. */
module Table {
  import opened Basics
  import opened Calendar
  import opened Linker

  /** A cell of the measurement-kind header row: the text of its nested link
      element, or None when the cell has no such element. */
  datatype KindSlot = KindSlot(link: Option<string>, x: int)

  /** The geometry of a rendered page: the three header rows, the bolded
      text of each table row's second cell, and the text of the cell at each
      (row, column), numbered from 1 as in the table's XPath. */
  datatype Page = Page(
    pollutantRow: seq<HeaderCell>,
    kindRow: seq<KindSlot>,
    unitRow: seq<HeaderCell>,
    stations: seq<string>,
    grid: map<(int, int), string>)

  /** One row of the output file, field for field. */
  datatype Reading = Reading(
    cellValue: string,
    pollutant: string,
    measInfo: string,
    measUnit: string,
    stationName: string,
    cityName: string,
    date: Date)

  /** What ends a page's extraction with an exception. */
  datatype ScrapeError =
    | MissingLink(kindCell: nat)          // a kind cell has no nested link element
    | KindUnlinked(unit: nat, kind: nat)  // KeyError in the unit linker
    | MissingCell(row: int, col: int)     // the grid cell XPath matched nothing
    | ColumnUnlinked(dataColumn: nat)      // KeyError reading a data column's pollutant

  /** The two exceptions the nested loops can raise. */
  predicate IsGridError(e: ScrapeError)
  {
    e.MissingCell? || e.ColumnUnlinked?
  }

  datatype Status = NoData | Extracted | Failed(error: ScrapeError)

  /** The rows handed to the writer, and how the extraction ended. Rows
      written before an exception stay written. */
  datatype Extraction = Extraction(written: seq<Reading>, status: Status)

  /** The leading unit columns that label rows rather than hold data. */
  const MetadataColumns: nat := 3

  /** Grid coordinates are data indices plus 4: 1-based XPath indexing and
      three header rows (or label columns) before the data. */
  const GridOffset: nat := 4

  /** The value returned to the date walk: 0 for no data, 1 otherwise. */
  function ReturnCode(s: Status): (code: nat)
    requires !s.Failed?
    ensures code == 0 <==> s == NoData
    ensures code <= 1
  {
    if s == NoData then 0 else 1
  }

  /** The kind row as the scraper reads it: each cell's nested link text; the
      first cell without a link raises. */
  function ReadKindRowFrom(slots: seq<KindSlot>, i: nat): (r: Result<seq<HeaderCell>, nat>)
    requires i <= |slots|
    ensures r.Success? <==> forall k :: i <= k < |slots| ==> slots[k].link.Some?
    ensures r.Success? ==> |r.value| == |slots| - i
    ensures r.Success? ==> forall k :: i <= k < |slots| ==>
      r.value[k - i] == HeaderCell(slots[k].link.value, slots[k].x)
    ensures r.Failure? ==> i <= r.error < |slots| && slots[r.error].link.None?
    decreases |slots| - i
  {
    if i == |slots| then Success([])
    else
      match slots[i].link
      case None => Failure(i)
      case Some(t) =>
        match ReadKindRowFrom(slots, i + 1)
        case Failure(k) => Failure(k)
        case Success(rest) => Success([HeaderCell(t, slots[i].x)] + rest)
  }

  /** `del measurement_units[:3]`: a list of three or fewer becomes empty. */
  function DropMetadata(units: seq<UnitCell>): (r: seq<UnitCell>)
    ensures |r| == Max(|units| - MetadataColumns, 0)
    ensures forall k :: 0 <= k < |r| ==> r[k] == units[k + MetadataColumns]
  {
    if |units| <= MetadataColumns then [] else units[MetadataColumns..]
  }

  /** The kind row read and linked to the pollutant row. */
  function LinkedKinds(page: Page): seq<KindCell>
    requires ReadKindRowFrom(page.kindRow, 0).Success?
  {
    LinkKinds(page.pollutantRow, ReadKindRowFrom(page.kindRow, 0).value)
  }

  /** The data columns of a page: the linked unit cells after the metadata
      columns, or the error that stops the header reconstruction. Data
      column `k` is unit column `k + 3`, owned by what the unit linker gave it. */
  function DataColumns(page: Page): (r: Result<seq<UnitCell>, ScrapeError>)
    ensures r.Success? ==> |r.value| == Max(|page.unitRow| - MetadataColumns, 0)
    ensures r.Success? ==> forall k :: 0 <= k < |r.value| ==>
      r.value[k].text == page.unitRow[k + MetadataColumns].text
      && r.value[k].x == page.unitRow[k + MetadataColumns].x
    ensures r.Success? ==> ReadKindRowFrom(page.kindRow, 0).Success?
    ensures r.Success? ==> forall k :: 0 <= k < |r.value| ==>
      LinkUnit(LinkedKinds(page), page.unitRow[k + MetadataColumns]) == Success(r.value[k])
    ensures r.Success? <==>
      ReadKindRowFrom(page.kindRow, 0).Success? && LinkUnits(LinkedKinds(page), page.unitRow).Success?
    ensures r.Failure? ==> r.error.MissingLink? || r.error.KindUnlinked?
    ensures r.Failure? && r.error.MissingLink? ==> ReadKindRowFrom(page.kindRow, 0) == Failure(r.error.kindCell)
    ensures r.Failure? && r.error.KindUnlinked? ==>
      && ReadKindRowFrom(page.kindRow, 0).Success?
      && r.error.unit < |page.unitRow|
      && LinkUnit(LinkedKinds(page), page.unitRow[r.error.unit]) == Failure(r.error.kind)
  {
    match ReadKindRowFrom(page.kindRow, 0)
    case Failure(k) => Failure(MissingLink(k))
    case Success(kindCells) =>
      var kinds := LinkKinds(page.pollutantRow, kindCells);
      match LinkUnits(kinds, page.unitRow)
      case Failure(e) => Failure(KindUnlinked(e.unit, e.kind))
      case Success(units) => Success(DropMetadata(units))
  }

  /** With sorted pollutant and kind starts, data column `k` is owned by the
      kind with the greatest start at most its unit's x, paired with the
      pollutant with the greatest start at most that kind's x; it has no
      owner exactly when its unit lies left of every kind. */
  lemma DataColumnOwner(page: Page, k: nat, m: nat, p: nat)
    requires DataColumns(page).Success? && k < |DataColumns(page).value|
    requires StrictlyIncreasing(Starts(page.pollutantRow))
    requires StrictlyIncreasing(Starts(ReadKindRowFrom(page.kindRow, 0).value))
    ensures var kindCells := ReadKindRowFrom(page.kindRow, 0).value;
      var u := page.unitRow[k + MetadataColumns];
      && (DataColumns(page).value[k].owner.None? <==>
            forall j :: 0 <= j < |kindCells| ==> u.x < kindCells[j].x)
      && (GreatestStartAtMost(Starts(kindCells), u.x, m)
          && GreatestStartAtMost(Starts(page.pollutantRow), kindCells[m].x, p) ==>
            DataColumns(page).value[k].owner == Some(ColumnOwner(kindCells[m].text, page.pollutantRow[p].text)))
  {
    var kindCells := ReadKindRowFrom(page.kindRow, 0).value;
    var kinds := LinkedKinds(page);
    var u := page.unitRow[k + MetadataColumns];
    assert Starts(KindHeaders(kinds)) == Starts(kindCells);
    LinkedToGreatestStart(Starts(kindCells), u.x, m);
    if GreatestStartAtMost(Starts(kindCells), u.x, m) {
      LinkKindsSorted(page.pollutantRow, kindCells, m, p);
    }
  }

  /** What the nested loops see: data columns, stations, the grid and the
      caller's city and date. */
  datatype Sheet = Sheet(
    cols: seq<UnitCell>,
    stations: seq<string>,
    grid: map<(int, int), string>,
    city: string,
    date: Date)

  /** The row for data column `i` and station `j`: the cell at grid row
      `j + 4`, column `i + 4`, annotated from column `i` and station `j`. */
  function EmitCell(sh: Sheet, i: nat, j: nat): (r: Result<Reading, ScrapeError>)
    requires i < |sh.cols| && j < |sh.stations|
    ensures r.Failure? ==> IsGridError(r.error)
    ensures r.Success? <==> (j + GridOffset, i + GridOffset) in sh.grid && sh.cols[i].owner.Some?
    ensures r.Failure? ==>
      r.error == (if (j + GridOffset, i + GridOffset) !in sh.grid then MissingCell(j + GridOffset, i + GridOffset)
                  else ColumnUnlinked(i))
    ensures r.Success? ==>
      && r.value.cellValue == sh.grid[(j + GridOffset, i + GridOffset)]
      && r.value.pollutant == sh.cols[i].owner.value.pollutant
      && r.value.measInfo == sh.cols[i].owner.value.kind
      && r.value.measUnit == sh.cols[i].text
      && r.value.stationName == sh.stations[j]
      && r.value.cityName == sh.city
      && r.value.date == sh.date
  {
    var key := (j + GridOffset, i + GridOffset);
    if key !in sh.grid then Failure(MissingCell(key.0, key.1))
    else
      match sh.cols[i].owner
      case None => Failure(ColumnUnlinked(i))
      case Some(o) => Success(Reading(sh.grid[key], o.pollutant, o.kind, sh.cols[i].text, sh.stations[j], sh.city, sh.date))
  }

  /** Rows emitted so far and the exception that ended the loops, if any. */
  datatype Emitted = Emitted(rows: seq<Reading>, failure: Option<ScrapeError>)

  /** All rows of a sheet carry its city and date. */
  predicate Stamped(sh: Sheet, rows: seq<Reading>)
  {
    forall k :: 0 <= k < |rows| ==> rows[k].cityName == sh.city && rows[k].date == sh.date
  }

  /** The inner loop over stations `j..` for data column `i`. */
  function EmitColumn(sh: Sheet, i: nat, j: nat): (r: Emitted)
    requires i < |sh.cols| && j <= |sh.stations|
    ensures |r.rows| <= |sh.stations| - j
    ensures Stamped(sh, r.rows)
    ensures forall k :: 0 <= k < |r.rows| ==> EmitCell(sh, i, j + k) == Success(r.rows[k])
    ensures r.failure.None? <==> |r.rows| == |sh.stations| - j
    ensures r.failure.Some? ==> EmitCell(sh, i, j + |r.rows|) == Failure(r.failure.value)
    decreases |sh.stations| - j
  {
    if j == |sh.stations| then Emitted([], None)
    else
      match EmitCell(sh, i, j)
      case Failure(e) => Emitted([], Some(e))
      case Success(row) =>
        var rest := EmitColumn(sh, i, j + 1);
        Emitted([row] + rest.rows, rest.failure)
  }

  /** The outer loop over data columns `i..`, column-major. */
  function EmitColumns(sh: Sheet, i: nat): (r: Emitted)
    requires i <= |sh.cols|
    ensures Stamped(sh, r.rows)
    ensures r.failure.Some? ==> IsGridError(r.failure.value)
    decreases |sh.cols| - i
  {
    if i == |sh.cols| then Emitted([], None)
    else
      var col := EmitColumn(sh, i, 0);
      if col.failure.Some? then col
      else
        var rest := EmitColumns(sh, i + 1);
        Emitted(col.rows + rest.rows, rest.failure)
  }

  /** `_get_data_from_table_by_cityname` (and `get_data_from_table_by_cityname`)
      on a rendered page: an empty pollutant row means no data and nothing
      written; otherwise the header is reconstructed and the grid flattened. */
  function Extract(page: Page, city: string, date: Date): (r: Extraction)
    ensures r.status == NoData <==> page.pollutantRow == []
    ensures r.status == NoData ==> r.written == []
    ensures forall k :: 0 <= k < |r.written| ==> r.written[k].cityName == city && r.written[k].date == date
    ensures r.status.Failed? && !IsGridError(r.status.error) ==> r.written == []
  {
    if page.pollutantRow == [] then Extraction([], NoData)
    else
      match DataColumns(page)
      case Failure(e) => Extraction([], Failed(e))
      case Success(cols) =>
        var sh := Sheet(cols, page.stations, page.grid, city, date);
        var em := EmitColumns(sh, 0);
        assert Stamped(sh, em.rows);
        match em.failure
        case None => Extraction(em.rows, Extracted)
        case Some(e) => Extraction(em.rows, Failed(e))
  }

  /** Whether the loops reached `writer.writerow`. Python looks `writerow` up
      on the writer before it builds the row, so the writer is used as soon as
      the first cell has been fetched, even when that column's pollutant then
      raises. */
  predicate CallsWriter(ex: Extraction)
  {
    ex.written != [] || (ex.status.Failed? && ex.status.error.ColumnUnlinked?)
  }

  /** The writer is used exactly when the page has a table, at least one
      data column and one station, and the first grid cell (4, 4) exists. */
  lemma CallsWriterIffFirstCell(page: Page, city: string, date: Date)
    ensures CallsWriter(Extract(page, city, date)) <==>
      && page.pollutantRow != []
      && DataColumns(page).Success?
      && 0 < |DataColumns(page).value|
      && 0 < |page.stations|
      && (GridOffset, GridOffset) in page.grid
  {
    if page.pollutantRow != [] && DataColumns(page).Success? {
      var sh := PageSheet(page, city, date);
      var em := EmitColumns(sh, 0);
      assert Extract(page, city, date).written == em.rows;
      if |sh.cols| == 0 {
        assert em == Emitted([], None);
      } else if |sh.stations| == 0 {
        if em.failure.Some? {
          var c, j := EmitColumnsFailure(sh, 0);
        } else {
          EmitColumnsLength(sh, 0);
          RowIndexIsColumnMajor(0, |sh.cols|, 0);
        }
      } else {
        var col := EmitColumn(sh, 0, 0);
        assert EmitCell(sh, 0, 0) == EmitCell(sh, 0, 0 + 0);
        if col.failure.None? {
          assert em.rows == col.rows + EmitColumns(sh, 1).rows;
        }
      }
    }
  }

  /** Position of the row for data column `c` and station `j` in the output
      of a page with `n` stations: columns outer, stations inner. */
  function RowIndex(n: nat, c: nat, j: nat): nat
  {
    if c == 0 then j else n + RowIndex(n, c - 1, j)
  }

  /** The row position is `c * n + j`. */
  lemma {:induction false} RowIndexIsColumnMajor(n: nat, c: nat, j: nat)
    ensures RowIndex(n, c, j) == c * n + j
  {
    if c > 0 {
      RowIndexIsColumnMajor(n, c - 1, j);
    }
  }

  /** The loops write one row per station for each data column. */
  lemma {:induction false} EmitColumnsLength(sh: Sheet, i: nat)
    requires i <= |sh.cols|
    requires EmitColumns(sh, i).failure.None?
    ensures |EmitColumns(sh, i).rows| == RowIndex(|sh.stations|, |sh.cols| - i, 0)
    decreases |sh.cols| - i
  {
    if i < |sh.cols| {
      EmitColumnsLength(sh, i + 1);
    }
  }

  /** When the loops finish, the row of column `c` and station `j` sits at
      the column-major position of that pair. */
  lemma {:induction false} EmitColumnsAt(sh: Sheet, i: nat, c: nat, j: nat)
    requires i <= c < |sh.cols| && j < |sh.stations|
    requires EmitColumns(sh, i).failure.None?
    ensures RowIndex(|sh.stations|, c - i, j) < |EmitColumns(sh, i).rows|
    ensures EmitCell(sh, c, j) == Success(EmitColumns(sh, i).rows[RowIndex(|sh.stations|, c - i, j)])
    decreases c - i
  {
    var col := EmitColumn(sh, i, 0);
    var rest := EmitColumns(sh, i + 1);
    assert EmitColumns(sh, i).rows == col.rows + rest.rows;
    if c == i {
      assert EmitCell(sh, i, 0 + j) == Success(col.rows[j]);
    } else {
      EmitColumnsAt(sh, i + 1, c, j);
    }
  }

  /** When the loops stop on an exception, it was raised by the cell of some
      pair (c, j), and exactly the rows of the pairs before it in
      column-major order have been written. */
  lemma {:induction false} EmitColumnsFailure(sh: Sheet, i: nat) returns (c: nat, j: nat)
    requires i <= |sh.cols|
    requires EmitColumns(sh, i).failure.Some?
    ensures i <= c < |sh.cols| && j < |sh.stations|
    ensures EmitCell(sh, c, j) == Failure(EmitColumns(sh, i).failure.value)
    ensures |EmitColumns(sh, i).rows| == RowIndex(|sh.stations|, c - i, j)
    decreases |sh.cols| - i
  {
    var col := EmitColumn(sh, i, 0);
    if col.failure.Some? {
      c, j := i, |col.rows|;
    } else {
      c, j := EmitColumnsFailure(sh, i + 1);
    }
  }

  /** The row of column `c` and station `j` of a finished sheet. */
  lemma SheetRow(sh: Sheet, c: nat, j: nat)
    requires EmitColumns(sh, 0).failure.None?
    requires c < |sh.cols| && j < |sh.stations|
    ensures RowIndex(|sh.stations|, c, j) < |EmitColumns(sh, 0).rows|
    ensures EmitCell(sh, c, j) == Success(EmitColumns(sh, 0).rows[RowIndex(|sh.stations|, c, j)])
  {
    var n := |sh.stations|;
    assert RowIndex(n, c - 0, j) == RowIndex(n, c, j);
    EmitColumnsAt(sh, 0, c, j);
  }

  /** When the loops over a sheet finish, they have written
      columns * stations rows, the row of column `c` and station `j` at
      position `c * stations + j`. */
  lemma SheetLayout(sh: Sheet)
    requires EmitColumns(sh, 0).failure.None?
    ensures |EmitColumns(sh, 0).rows| == |sh.cols| * |sh.stations|
    ensures forall c, j :: 0 <= c < |sh.cols| && 0 <= j < |sh.stations| ==>
      && RowIndex(|sh.stations|, c, j) < |EmitColumns(sh, 0).rows|
      && EmitCell(sh, c, j) == Success(EmitColumns(sh, 0).rows[RowIndex(|sh.stations|, c, j)])
  {
    EmitColumnsLength(sh, 0);
    RowIndexIsColumnMajor(|sh.stations|, |sh.cols|, 0);
    assert |EmitColumns(sh, 0).rows| == |sh.cols| * |sh.stations|;
    forall c, j | 0 <= c < |sh.cols| && 0 <= j < |sh.stations|
      ensures RowIndex(|sh.stations|, c, j) < |EmitColumns(sh, 0).rows|
      ensures EmitCell(sh, c, j) == Success(EmitColumns(sh, 0).rows[RowIndex(|sh.stations|, c, j)])
    {
      SheetRow(sh, c, j);
    }
  }

  /** The sheet a page's data columns are flattened from. */
  function PageSheet(page: Page, city: string, date: Date): (sh: Sheet)
    requires DataColumns(page).Success?
    ensures sh.cols == DataColumns(page).value && sh.stations == page.stations && sh.grid == page.grid
    ensures sh.city == city && sh.date == date
  {
    Sheet(DataColumns(page).value, page.stations, page.grid, city, date)
  }

  /** Past the empty-row guard and the header reconstruction, an extraction
      is the nested loops over the page's sheet. */
  lemma ExtractIsSheet(page: Page, city: string, date: Date)
    requires page.pollutantRow != [] && DataColumns(page).Success?
    ensures Extract(page, city, date).written == EmitColumns(PageSheet(page, city, date), 0).rows
    ensures Extract(page, city, date).status ==
      match EmitColumns(PageSheet(page, city, date), 0).failure
      case None => Extracted
      case Some(e) => Failed(e)
  {
  }

  /** Where the loops over a sheet stopped, if they raised. */
  lemma SheetFailure(sh: Sheet) returns (c: nat, j: nat)
    requires EmitColumns(sh, 0).failure.Some?
    ensures c < |sh.cols| && j < |sh.stations|
    ensures EmitCell(sh, c, j) == Failure(EmitColumns(sh, 0).failure.value)
    ensures |EmitColumns(sh, 0).rows| == RowIndex(|sh.stations|, c, j)
  {
    c, j := EmitColumnsFailure(sh, 0);
  }

  /** A page that yields data is written as max(units - 3, 0) * stations rows. */
  lemma ExtractedCount(page: Page, city: string, date: Date)
    requires Extract(page, city, date).status == Extracted
    ensures DataColumns(page).Success?
    ensures |Extract(page, city, date).written| == Max(|page.unitRow| - MetadataColumns, 0) * |page.stations|
  {
    var sh := PageSheet(page, city, date);
    assert Extract(page, city, date).written == EmitColumns(sh, 0).rows;
    SheetLayout(sh);
  }

  /** On a page that yields data, the row of data column `c` and station `j`
      holds the grid cell at row `j + 4`, column `c + 4`, the pollutant and
      kind linked to unit column `c + 3`, that column's unit text, station
      `j`, and the caller's city and date. */
  lemma ExtractedRow(page: Page, city: string, date: Date, c: nat, j: nat)
    requires Extract(page, city, date).status == Extracted
    requires c < Max(|page.unitRow| - MetadataColumns, 0) && j < |page.stations|
    ensures DataColumns(page).Success?
    ensures DataColumns(page).value[c].owner.Some?
    ensures (j + GridOffset, c + GridOffset) in page.grid
    ensures RowIndex(|page.stations|, c, j) < |Extract(page, city, date).written|
    ensures Extract(page, city, date).written[RowIndex(|page.stations|, c, j)]
      == Reading(page.grid[(j + GridOffset, c + GridOffset)],
                 DataColumns(page).value[c].owner.value.pollutant,
                 DataColumns(page).value[c].owner.value.kind,
                 page.unitRow[c + MetadataColumns].text,
                 page.stations[j], city, date)
  {
    var sh := PageSheet(page, city, date);
    ExtractIsSheet(page, city, date);
    SheetRow(sh, c, j);
  }

  /** An extraction that raises inside the loops has written exactly the rows
      of the pairs before the failing one in column-major order. */
  lemma ExtractFailureKeepsPrefix(page: Page, city: string, date: Date) returns (c: nat, j: nat)
    requires Extract(page, city, date).status.Failed?
    requires IsGridError(Extract(page, city, date).status.error)
    ensures DataColumns(page).Success?
    ensures c < |DataColumns(page).value| && j < |page.stations|
    ensures |Extract(page, city, date).written| == RowIndex(|page.stations|, c, j)
    ensures Extract(page, city, date).status.error ==
      (if (j + GridOffset, c + GridOffset) !in page.grid then MissingCell(j + GridOffset, c + GridOffset)
       else ColumnUnlinked(c))
    ensures Extract(page, city, date).status.error.ColumnUnlinked? ==> DataColumns(page).value[c].owner.None?
  {
    var sh := PageSheet(page, city, date);
    ExtractIsSheet(page, city, date);
    c, j := SheetFailure(sh);
  }

  /** A page with a pollutant row but no data columns still reports data
      (return code 1) while writing nothing. */
  lemma ExtractedWithoutRows()
    ensures var page := Page([HeaderCell("NO2", 0)], [], [HeaderCell("a", 0), HeaderCell("b", 1), HeaderCell("c", 2)], ["Belluno"], map[]);
      var r := Extract(page, "Belluno", Date(2011, 1, 1));
      r.status == Extracted && ReturnCode(r.status) == 1 && r.written == []
  {
  }

  /** Pollutants NO2 at x = 0 and PM10 at x = 100; kinds "max ora" at 0,
      "media giorn." at 50 and 120; three metadata units left of every kind
      and two data units at 10 and 130; stations A and B. */
  function TwoPollutantSample(): Page
  {
    Page(
      [HeaderCell("NO2", 0), HeaderCell("PM10", 100)],
      [KindSlot(Some("max ora"), 0), KindSlot(Some("media giorn."), 50), KindSlot(Some("media giorn."), 120)],
      [HeaderCell("", -30), HeaderCell("", -20), HeaderCell("", -10), HeaderCell("ug/m3", 10), HeaderCell("ug/m3", 130)],
      ["A", "B"],
      map[(4, 4) := "1", (5, 4) := "2", (4, 5) := "3", (5, 5) := "4"])
  }

  /** The sample's kind row, linked to its pollutant row. */
  function TwoPollutantKinds(): seq<KindCell>
  {
    [KindCell("max ora", 0, Some("NO2")), KindCell("media giorn.", 50, Some("NO2")),
     KindCell("media giorn.", 120, Some("PM10"))]
  }

  lemma TwoPollutantKindRow()
    ensures var page := TwoPollutantSample();
      && ReadKindRowFrom(page.kindRow, 0).Success?
      && LinkKinds(page.pollutantRow, ReadKindRowFrom(page.kindRow, 0).value) == TwoPollutantKinds()
  {
    var page := TwoPollutantSample();
    var kindCells := [HeaderCell("max ora", 0), HeaderCell("media giorn.", 50), HeaderCell("media giorn.", 120)];
    assert ReadKindRowFrom(page.kindRow, 0).Success?;
    assert ReadKindRowFrom(page.kindRow, 0).value == kindCells;
    assert Starts(page.pollutantRow) == [0, 100];
    assert FirstCover([0, 100], 0) == Some(0);
    assert FirstCover([0, 100], 50) == Some(0);
    assert FirstCover([0, 100], 120) == Some(1);
  }

  /** The sample's three leading unit cells lie left of every kind cell. */
  lemma TwoPollutantLeadingUnits()
    ensures var kinds, units := TwoPollutantKinds(), TwoPollutantSample().unitRow;
      && LinkUnit(kinds, units[0]) == Success(UnitCell("", -30, None))
      && LinkUnit(kinds, units[1]) == Success(UnitCell("", -20, None))
      && LinkUnit(kinds, units[2]) == Success(UnitCell("", -10, None))
  {
    assert Starts(KindHeaders(TwoPollutantKinds())) == [0, 50, 120];
    UnlinkedIffLeftOfAll([0, 50, 120], -30);
    UnlinkedIffLeftOfAll([0, 50, 120], -20);
    UnlinkedIffLeftOfAll([0, 50, 120], -10);
  }

  /** The sample's two data unit cells lie under the first and the third kind cell. */
  lemma TwoPollutantDataUnits()
    ensures var kinds, units := TwoPollutantKinds(), TwoPollutantSample().unitRow;
      && LinkUnit(kinds, units[3]) == Success(UnitCell("ug/m3", 10, Some(ColumnOwner("max ora", "NO2"))))
      && LinkUnit(kinds, units[4]) == Success(UnitCell("ug/m3", 130, Some(ColumnOwner("media giorn.", "PM10"))))
  {
    assert Starts(KindHeaders(TwoPollutantKinds())) == [0, 50, 120];
    assert FirstCover([0, 50, 120], 10) == Some(0);
    assert FirstCover([0, 50, 120], 130) == Some(2);
  }

  lemma TwoPollutantUnitRow()
    ensures LinkUnits(TwoPollutantKinds(), TwoPollutantSample().unitRow) == Success([
      UnitCell("", -30, None), UnitCell("", -20, None), UnitCell("", -10, None),
      UnitCell("ug/m3", 10, Some(ColumnOwner("max ora", "NO2"))),
      UnitCell("ug/m3", 130, Some(ColumnOwner("media giorn.", "PM10")))])
  {
    var kinds := TwoPollutantKinds();
    var units := TwoPollutantSample().unitRow;
    TwoPollutantLeadingUnits();
    TwoPollutantDataUnits();
    var linked := [UnitCell("", -30, None), UnitCell("", -20, None), UnitCell("", -10, None),
                   UnitCell("ug/m3", 10, Some(ColumnOwner("max ora", "NO2"))),
                   UnitCell("ug/m3", 130, Some(ColumnOwner("media giorn.", "PM10")))];
    assert forall k :: 0 <= k < |units| ==> LinkUnit(kinds, units[k]) == Success(linked[k]);
    assert LinkUnits(kinds, units).Success?;
    assert LinkUnits(kinds, units).value == linked;
  }

  /** The sample's first data column is NO2 / "max ora", the second PM10 / "media giorn.". */
  lemma TwoPollutantHeader()
    ensures DataColumns(TwoPollutantSample()) == Success([
      UnitCell("ug/m3", 10, Some(ColumnOwner("max ora", "NO2"))),
      UnitCell("ug/m3", 130, Some(ColumnOwner("media giorn.", "PM10")))])
  {
    TwoPollutantKindRow();
    TwoPollutantUnitRow();
    var linked := [UnitCell("", -30, None), UnitCell("", -20, None), UnitCell("", -10, None),
                   UnitCell("ug/m3", 10, Some(ColumnOwner("max ora", "NO2"))),
                   UnitCell("ug/m3", 130, Some(ColumnOwner("media giorn.", "PM10")))];
    assert linked[3..] == [linked[3], linked[4]];
  }

  /** The sample page flattens to four rows, column by column: the NO2 /
      "max ora" column for stations A and B, then the PM10 / "media giorn."
      column for A and B, each with the grid cell at (station + 4, column + 4). */
  lemma TwoPollutantPage()
    ensures var d := Date(2011, 1, 1);
      Extract(TwoPollutantSample(), "Belluno", d) == Extraction([
        Reading("1", "NO2", "max ora", "ug/m3", "A", "Belluno", d),
        Reading("2", "NO2", "max ora", "ug/m3", "B", "Belluno", d),
        Reading("3", "PM10", "media giorn.", "ug/m3", "A", "Belluno", d),
        Reading("4", "PM10", "media giorn.", "ug/m3", "B", "Belluno", d)], Extracted)
  {
    var page := TwoPollutantSample();
    TwoPollutantHeader();
    var d := Date(2011, 1, 1);
    var sh := PageSheet(page, "Belluno", d);
    TwoPollutantRows(sh);
    ExtractIsSheet(page, "Belluno", d);
  }

  lemma TwoPollutantRows(sh: Sheet)
    requires sh.cols == [
      UnitCell("ug/m3", 10, Some(ColumnOwner("max ora", "NO2"))),
      UnitCell("ug/m3", 130, Some(ColumnOwner("media giorn.", "PM10")))]
    requires sh.stations == ["A", "B"]
    requires sh.grid == map[(4, 4) := "1", (5, 4) := "2", (4, 5) := "3", (5, 5) := "4"]
    ensures EmitColumns(sh, 0) == Emitted([
      Reading("1", "NO2", "max ora", "ug/m3", "A", sh.city, sh.date),
      Reading("2", "NO2", "max ora", "ug/m3", "B", sh.city, sh.date),
      Reading("3", "PM10", "media giorn.", "ug/m3", "A", sh.city, sh.date),
      Reading("4", "PM10", "media giorn.", "ug/m3", "B", sh.city, sh.date)], None)
  {
    var r1 := Reading("1", "NO2", "max ora", "ug/m3", "A", sh.city, sh.date);
    var r2 := Reading("2", "NO2", "max ora", "ug/m3", "B", sh.city, sh.date);
    var r3 := Reading("3", "PM10", "media giorn.", "ug/m3", "A", sh.city, sh.date);
    var r4 := Reading("4", "PM10", "media giorn.", "ug/m3", "B", sh.city, sh.date);
    assert EmitColumn(sh, 0, 0) == Emitted([r1, r2], None);
    assert EmitColumn(sh, 1, 0) == Emitted([r3, r4], None);
    assert EmitColumns(sh, 2) == Emitted([], None);
    assert EmitColumns(sh, 1) == Emitted([r3, r4], None);
  }
}

=== FILE: tally.dfy ===
/** The bookkeeping of the yearly walk: the running total of return codes
    (`extracted_values`) and the list of dates without data
    (`missing_value_dates`), and the closing summary built from them. */
module Tally {
  import opened Basics
  import opened Calendar

  /** The running total of return codes after all of `cs`. */
  function Sum(cs: seq<nat>): (t: nat)
    ensures (forall k :: 0 <= k < |cs| ==> cs[k] <= 1) ==> t <= |cs|
    decreases |cs|
  {
    if cs == [] then 0 else Sum(cs[..|cs| - 1]) + cs[|cs| - 1]
  }

  lemma {:induction false} SumZero(cs: seq<nat>)
    ensures Sum(cs) == 0 <==> forall k :: 0 <= k < |cs| ==> cs[k] == 0
    decreases |cs|
  {
    if cs != [] {
      var init := cs[..|cs| - 1];
      SumZero(init);
      assert forall k :: 0 <= k < |init| ==> init[k] == cs[k];
    }
  }

  /** The index of the first day that yielded data, or the number of days
      when none did. */
  function FirstSuccess(cs: seq<nat>): (i: nat)
    ensures i <= |cs|
    ensures forall k :: 0 <= k < i ==> cs[k] == 0
    ensures i < |cs| ==> cs[i] != 0
    decreases |cs|
  {
    if cs == [] then 0
    else if cs[0] != 0 then 0
    else 1 + FirstSuccess(cs[1..])
  }

  /** `missing_value_dates` as the loop builds it: a day is added when the
      running total, its own code included, is still zero. It is always a
      prefix of the days: all of them while nothing has been collected, and
      once something has, a shorter prefix that leaves out the last day. */
  function MissingAsWritten(days: seq<Date>, codes: seq<nat>): (missing: seq<Date>)
    requires |days| == |codes|
    ensures Sum(codes) == 0 ==> missing == days
    ensures Sum(codes) != 0 ==> |missing| < |days|
    ensures |missing| <= |days| && missing == days[..|missing|]
    decreases |days|
  {
    if days == [] then []
    else
      var init := days[..|days| - 1];
      var m := MissingAsWritten(init, codes[..|codes| - 1]);
      assert init + [days[|days| - 1]] == days;
      if Sum(codes) == 0 then m + [days[|days| - 1]] else m
  }

  /** The first day with data is the one before which every code is 0. */
  lemma FirstSuccessUnique(cs: seq<nat>, i: nat)
    requires i <= |cs|
    requires forall k :: 0 <= k < i ==> cs[k] == 0
    requires i < |cs| ==> cs[i] != 0
    ensures FirstSuccess(cs) == i
  {
  }

  /** When some day yielded data, dropping the last day keeps the first day
      with data. */
  lemma FirstSuccessInit(codes: seq<nat>)
    requires FirstSuccess(codes) < |codes|
    ensures FirstSuccess(codes[..|codes| - 1]) == FirstSuccess(codes)
  {
    var cinit := codes[..|codes| - 1];
    var f := FirstSuccess(codes);
    assert forall k :: 0 <= k < f ==> cinit[k] == codes[k];
    FirstSuccessUnique(cinit, f);
  }

  /** As written, the list holds exactly the days before the first day that
      yielded data: a later day without data is never recorded. */
  lemma {:induction false} MissingAsWrittenIsPrefix(days: seq<Date>, codes: seq<nat>)
    requires |days| == |codes|
    ensures MissingAsWritten(days, codes) == days[..FirstSuccess(codes)]
    decreases |days|
  {
    if days != [] {
      var n := |days|;
      if Sum(codes) == 0 {
        SumZero(codes);
        assert FirstSuccess(codes) == n;
      } else {
        var init := days[..n - 1];
        var f := FirstSuccess(codes);
        assert MissingAsWritten(days, codes) == MissingAsWritten(init, codes[..n - 1]);
        MissingAsWrittenIsPrefix(init, codes[..n - 1]);
        SumZero(codes);
        FirstSuccessInit(codes);
        assert init[..f] == days[..f];
      }
    }
  }

  /** A day without data after a day with data goes unrecorded as written. */
  lemma LaterGapUnrecorded(d1: Date, d2: Date)
    ensures MissingAsWritten([d1, d2], [1, 0]) == []
    ensures MissingDays([d1, d2], [1, 0]) == [d2]
  {
    assert [d1, d2][..1] == [d1] && [d1][..0] == [];
    assert [1, 0][..1] == [1] && [1][..0] == [];
    assert Sum([1]) == 1 && Sum([1, 0]) == 1;
    assert MissingAsWritten([d1], [1]) == [];
    assert MissingDays([d1], [1]) == [];
  }

  /** `missing_value_dates` as intended: the days whose own return code is
      0, in walk order. */
  function MissingDays(days: seq<Date>, codes: seq<nat>): (missing: seq<Date>)
    requires |days| == |codes|
    ensures |missing| <= |days|
    ensures forall k :: 0 <= k < |missing| ==> missing[k] in days
    ensures (forall k :: 0 <= k < |codes| ==> codes[k] == 0) ==> missing == days
    decreases |days|
  {
    if days == [] then []
    else
      var init := days[..|days| - 1];
      var m := MissingDays(init, codes[..|codes| - 1]);
      assert init + [days[|days| - 1]] == days;
      assert forall k :: 0 <= k < |m| ==> m[k] in init ==> m[k] in days;
      if codes[|codes| - 1] == 0 then m + [days[|days| - 1]] else m
  }

  /** A date is listed exactly when some day of that date yielded no data. */
  lemma {:induction false} MissingDaysMembers(days: seq<Date>, codes: seq<nat>)
    requires |days| == |codes|
    ensures forall d :: d in MissingDays(days, codes) <==>
      exists k :: 0 <= k < |days| && days[k] == d && codes[k] == 0
    decreases |days|
  {
    if days != [] {
      var n := |days|;
      var init := days[..n - 1];
      var cinit := codes[..n - 1];
      MissingDaysMembers(init, cinit);
      forall d | d in MissingDays(days, codes)
        ensures exists k :: 0 <= k < |days| && days[k] == d && codes[k] == 0
      {
        if d !in MissingDays(init, cinit) {
          assert days[n - 1] == d && codes[n - 1] == 0;
        } else {
          var k :| 0 <= k < |init| && init[k] == d && cinit[k] == 0;
          assert days[k] == d && codes[k] == 0;
        }
      }
      forall d | exists k :: 0 <= k < |days| && days[k] == d && codes[k] == 0
        ensures d in MissingDays(days, codes)
      {
        var k :| 0 <= k < |days| && days[k] == d && codes[k] == 0;
        if k < n - 1 {
          assert init[k] == d && cinit[k] == 0;
        }
      }
    }
  }

  /** With codes 0 or 1, every day is counted once: either as a day with
      data in the total or as a missing day. */
  lemma {:induction false} MissingDaysCount(days: seq<Date>, codes: seq<nat>)
    requires |days| == |codes|
    requires forall k :: 0 <= k < |codes| ==> codes[k] <= 1
    ensures |MissingDays(days, codes)| + Sum(codes) == |codes|
    decreases |days|
  {
    if days != [] {
      var cinit := codes[..|codes| - 1];
      assert forall k :: 0 <= k < |cinit| ==> cinit[k] == codes[k];
      MissingDaysCount(days[..|days| - 1], cinit);
    }
  }

  /** The loop's bookkeeping as written: add each day's return code to the
      running total, then record the day when that total is still zero. */
  method TallyDays(days: seq<Date>, codes: seq<nat>) returns (extracted: nat, missing: seq<Date>)
    requires |days| == |codes|
    ensures extracted == Sum(codes)
    ensures missing == MissingAsWritten(days, codes)
  {
    extracted, missing := 0, [];
    var i := 0;
    while i < |days|
      invariant 0 <= i <= |days|
      invariant extracted == Sum(codes[..i])
      invariant missing == MissingAsWritten(days[..i], codes[..i])
    {
      assert codes[..i + 1][..i] == codes[..i];
      assert days[..i + 1][..i] == days[..i];
      extracted := extracted + codes[i];
      if extracted == 0 {
        missing := missing + [days[i]];
      }
      i := i + 1;
    }
    assert days[..i] == days && codes[..i] == codes;
  }

  /** The closing report: values collected, the missing dates, and the
      missing share as numerator over denominator (printed as a percentage). */
  datatype Summary = Summary(collected: nat, missing: seq<Date>, missingShare: nat, outOf: nat)

  /** The percentage divides by the number of days counted. */
  datatype SummaryError = ZeroDivision

  function Summarize(collected: nat, missing: seq<Date>): (r: Result<Summary, SummaryError>)
    ensures r.Failure? <==> collected == 0 && missing == []
    ensures r.Success? ==>
      && r.value.collected == collected && r.value.missing == missing
      && 0 < r.value.outOf && r.value.missingShare <= r.value.outOf
      && (r.value.missingShare == r.value.outOf <==> collected == 0)
  {
    if collected + |missing| == 0 then Failure(ZeroDivision)
    else Success(Summary(collected, missing, |missing|, collected + |missing|))
  }

  /** As written, the percentage is defined as soon as one day was walked:
      the first day is either counted or listed. */
  lemma AsWrittenSummaryDefined(days: seq<Date>, codes: seq<nat>)
    requires |days| == |codes| && days != []
    ensures Summarize(Sum(codes), MissingAsWritten(days, codes)).Success?
  {
    MissingAsWrittenIsPrefix(days, codes);
    SumZero(codes);
    if Sum(codes) == 0 {
      assert FirstSuccess(codes) == |codes|;
    }
  }
}

=== FILE: walk.dfy ===
/** The day-by-day walk over the archive: one rendered page per day, its
    rows routed to the month's file, a new file opened (and the previous
    one closed) only when the month's file does not exist yet. The
    filesystem is a set of existing paths; files are a log of events. */
module DateWalk {
  import opened Basics
  import opened Calendar
  import opened Table
  import opened ArchivePaths

  /** The walk's fixed inputs: the archive root and what one day's
      retrieval yields (the rows handed to the writer and how it ended). */
  datatype Config = Config(root: string, scrape: Date -> Extraction)

  /** The day's retrieval of the scraper: `render` stands for the browser
      session that fills the form for a day and returns the rendered table,
      which is then extracted for `city`. */
  function Scraper(city: string, render: Date -> Page): (scrape: Date -> Extraction)
    ensures forall d :: scrape(d).status == NoData <==> render(d).pollutantRow == []
    ensures forall d, k :: 0 <= k < |scrape(d).written| ==>
      scrape(d).written[k].date == d && scrape(d).written[k].cityName == city
  {
    d => Extract(render(d), city, d)
  }

  /** What happens to files: opened with `w+` and its header written, one
      CSV row written, closed. */
  datatype FileEvent = Opened(path: string) | Wrote(path: string, row: Reading) | Closed(path: string)

  /** The exceptions that end the walk. */
  datatype WalkError =
    | NoWriter(day: Date)                      // rows handed to a `None` writer
    | ScrapeFailed(day: Date, error: ScrapeError)
    | NothingToClose                           // the final `close()` on `None`

  /** The walk after some days: paths that exist, the currently open file,
      the file events so far, each finished day's return code, and the
      exception that stopped the walk, if any. */
  datatype WalkState = WalkState(
    existing: set<string>,
    open: Option<string>,
    events: seq<FileEvent>,
    codes: seq<nat>,
    crash: Option<WalkError>)

  function Init(existing: set<string>): WalkState
  {
    WalkState(existing, None, [], [], None)
  }

  function DayPath(cfg: Config, d: Date): string
  {
    MonthPath(cfg.root, d.year, d.month)
  }

  /** One CSV row per reading, all to file `p`, in order. */
  function Writes(p: string, rows: seq<Reading>): (es: seq<FileEvent>)
    ensures |es| == |rows|
    ensures forall k :: 0 <= k < |rows| ==> es[k] == Wrote(p, rows[k])
  {
    seq(|rows|, k requires 0 <= k < |rows| => Wrote(p, rows[k]))
  }

  /** Events that write no row and open only `path`, as the last event. */
  predicate OpensOnlyLast(es: seq<FileEvent>, path: string)
  {
    forall k :: 0 <= k < |es| ==> !es[k].Wrote? && (es[k].Opened? ==> k == |es| - 1 && es[k].path == path)
  }

  /** Events that only close files. */
  predicate OnlyCloses(es: seq<FileEvent>)
  {
    forall k :: 0 <= k < |es| ==> es[k].Closed?
  }

  /** `_prepare_writer`: the open file, if any, is closed, and `path` is
      created and opened in its place. Replayed from the file open before,
      the appended events leave `path` as the only open file, and `path` is
      the only file opened. */
  function Rotate(st: WalkState, path: string): (r: WalkState)
    ensures r.existing == st.existing + {path} && r.open == Some(path)
    ensures r.codes == st.codes && r.crash == st.crash
    ensures |st.events| < |r.events| <= |st.events| + 2 && r.events[..|st.events|] == st.events
    ensures ReplayFrom(st.open, r.events[|st.events|..]) == Some(Some(path))
    ensures OpensOnlyLast(r.events[|st.events|..], path)
  {
    var closing := match st.open case None => [] case Some(p) => [Closed(p)];
    var r := st.(existing := st.existing + {path}, open := Some(path), events := st.events + closing + [Opened(path)]);
    assert r.events[|st.events|..] == closing + [Opened(path)];
    assert ReplayFrom(Some(path), []) == Some(Some(path));
    assert ReplayFrom(None, [Opened(path)]) == Some(Some(path));
    r
  }

  /** The first half of a day: a new file is prepared only when the month's
      file does not exist; otherwise the state is left as it was. The log
      gains at most a close and an open, the open being of `path` and only
      when `path` did not exist, and replays to the new open file. */
  function Prepare(st: WalkState, path: string): (r: WalkState)
    ensures path in r.existing && st.existing <= r.existing && r.existing <= st.existing + {path}
    ensures path in st.existing ==> r == st
    ensures path !in st.existing ==> r.open == Some(path)
    ensures r.codes == st.codes && r.crash == st.crash
    ensures |st.events| <= |r.events| <= |st.events| + 2 && r.events[..|st.events|] == st.events
    ensures ReplayFrom(st.open, r.events[|st.events|..]) == Some(r.open)
    ensures OpensOnlyLast(r.events[|st.events|..], path)
  {
    if path in st.existing then
      assert st.events[|st.events|..] == [];
      st
    else Rotate(st, path)
  }

  /** The second half of a day, given what the page yielded: its rows go to
      the current writer and the day's return code is added, unless the day
      raised. Without a writer, the day raises `NoWriter` as soon as the loops
      reach `writer.writerow`; otherwise an exception of the extraction is
      the day's error. */
  function Record(st: WalkState, d: Date, ex: Extraction): (r: WalkState)
    ensures r.existing == st.existing && r.open == st.open
    ensures st.open.None? ==> r.events == st.events
    ensures st.open.Some? ==> r.events == st.events + Writes(st.open.value, ex.written)
    ensures r.crash.None? ==> !ex.status.Failed? && r.codes == st.codes + [ReturnCode(ex.status)]
    ensures r.crash.None? <==> st.crash.None? && !ex.status.Failed? && (st.open.Some? || ex.written == [])
    ensures st.crash.Some? ==> r.crash == st.crash
    ensures st.crash.None? && st.open.None? && CallsWriter(ex) ==> r.crash == Some(NoWriter(d))
    ensures st.crash.None? && ex.status.Failed? && !(st.open.None? && CallsWriter(ex)) ==>
      r.crash == Some(ScrapeFailed(d, ex.status.error))
  {
    match st.open
    case None =>
      if st.crash.Some? then st
      else if CallsWriter(ex) then st.(crash := Some(NoWriter(d)))
      else if ex.status.Failed? then st.(crash := Some(ScrapeFailed(d, ex.status.error)))
      else st.(codes := st.codes + [ReturnCode(ex.status)])
    case Some(p) =>
      var st2 := st.(events := st.events + Writes(p, ex.written));
      if st.crash.Some? then st2
      else if ex.status.Failed? then st2.(crash := Some(ScrapeFailed(d, ex.status.error)))
      else st2.(codes := st2.codes + [ReturnCode(ex.status)])
  }

  /** One iteration of the day loop. A walk that has raised stays as it is;
      otherwise files are only added, the log only grows, and a day that
      does not raise appends its return code. */
  function Step(cfg: Config, st: WalkState, d: Date): (r: WalkState)
    ensures st.crash.Some? ==> r == st
    ensures st.existing <= r.existing
    ensures |st.events| <= |r.events| && r.events[..|st.events|] == st.events
    ensures r.crash.None? ==>
      && st.crash.None?
      && !cfg.scrape(d).status.Failed?
      && r.codes == st.codes + [ReturnCode(cfg.scrape(d).status)]
    ensures r.crash.Some? ==> r.codes == st.codes
  {
    if st.crash.Some? then st
    else Record(Prepare(st, DayPath(cfg, d)), d, cfg.scrape(d))
  }

  /** The day loop over `days`, in order. Files are only added, the log and
      the codes only grow, and at most one code is added per day. */
  function WalkDays(cfg: Config, st: WalkState, days: seq<Date>): (r: WalkState)
    ensures st.crash.Some? ==> r == st
    ensures st.existing <= r.existing
    ensures |st.events| <= |r.events| && r.events[..|st.events|] == st.events
    ensures |st.codes| <= |r.codes| <= |st.codes| + |days| && r.codes[..|st.codes|] == st.codes
    decreases |days|
  {
    if days == [] then st
    else
      var mid := WalkDays(cfg, st, days[..|days| - 1]);
      var r := Step(cfg, mid, days[|days| - 1]);
      PrefixTrans(st.events, mid.events, r.events);
      assert r.codes[..|mid.codes|] == mid.codes;
      PrefixTrans(st.codes, mid.codes, r.codes);
      r
  }

  /** The `close()` after the loop. It closes the open file and leaves
      nothing open, or raises when no file was ever opened; a walk that has
      already raised is left as it is, its file still open. */
  function Finish(st: WalkState): (r: WalkState)
    ensures st.crash.Some? ==> r == st
    ensures st.crash.None? ==> (r.crash.None? <==> st.open.Some?)
    ensures st.crash.None? && st.open.None? ==> r.crash == Some(NothingToClose)
    ensures r.existing == st.existing && r.codes == st.codes
    ensures |st.events| <= |r.events| <= |st.events| + 1 && r.events[..|st.events|] == st.events
    ensures OnlyCloses(r.events[|st.events|..])
    ensures r.crash.None? ==> r.open.None? && ReplayFrom(st.open, r.events[|st.events|..]) == Some(None)
  {
    if st.crash.Some? then st
    else match st.open
      case None => st.(crash := Some(NothingToClose))
      case Some(p) =>
        var r := st.(events := st.events + [Closed(p)], open := None);
        assert r.events[|st.events|..] == [Closed(p)];
        assert ReplayFrom(None, []) == Some(None);
        r
  }

  /** The whole walk: the days from `start` for `365 * (lastYear - start.year)`
      days, then the final close. Files are never removed, and a walk that
      ends normally ends by closing its last file. */
  function Run(root: string, city: string, render: Date -> Page, existing: set<string>, start: Date, lastYear: int): (r: WalkState)
    requires ValidDate(start)
    ensures existing <= r.existing
    ensures r.crash.None? ==> r.open.None? && 0 < |r.events| && r.events[|r.events| - 1].Closed?
  {
    Finish(WalkDays(Config(root, Scraper(city, render)), Init(existing), VisitedDays(start, lastYear)))
  }

  // ----- Open/close discipline -----

  /** Replaying one event against the file currently open: opening needs
      no open file, writing and closing need `path` to be the open one. None
      means the event breaks that discipline. */
  function Apply(cur: Option<string>, e: FileEvent): Option<Option<string>>
  {
    match e
    case Opened(p) => if cur.None? then Some(Some(p)) else None
    case Wrote(p, _) => if cur == Some(p) then Some(cur) else None
    case Closed(p) => if cur == Some(p) then Some(None) else None
  }

  /** Replaying a log from the file open before it; Some(f) when every event
      keeps the discipline, `f` being the file open afterwards. */
  function ReplayFrom(cur: Option<string>, es: seq<FileEvent>): Option<Option<string>>
    decreases |es|
  {
    if es == [] then Some(cur)
    else match Apply(cur, es[0])
      case None => None
      case Some(next) => ReplayFrom(next, es[1..])
  }

  lemma {:induction false} ReplayConcat(cur: Option<string>, a: seq<FileEvent>, b: seq<FileEvent>)
    ensures ReplayFrom(cur, a + b) ==
      match ReplayFrom(cur, a)
      case None => None
      case Some(mid) => ReplayFrom(mid, b)
    decreases |a|
  {
    if a == [] {
      assert a + b == b;
    } else {
      assert (a + b)[0] == a[0];
      assert (a + b)[1..] == a[1..] + b;
      match Apply(cur, a[0])
      case None =>
      case Some(next) => ReplayConcat(next, a[1..], b);
    }
  }

  lemma {:induction false} ReplayWrites(p: string, rows: seq<Reading>)
    ensures ReplayFrom(Some(p), Writes(p, rows)) == Some(Some(p))
    decreases |rows|
  {
    if rows != [] {
      assert Writes(p, rows)[1..] == Writes(p, rows[1..]);
      ReplayWrites(p, rows[1..]);
    }
  }

  /** A day keeps at most one file open at a time: the previous file is
      closed before the next is opened, and every row goes to the open file. */
  lemma StepScoped(cfg: Config, st: WalkState, d: Date)
    requires ReplayFrom(None, st.events) == Some(st.open)
    ensures ReplayFrom(None, Step(cfg, st, d).events) == Some(Step(cfg, st, d).open)
  {
    if st.crash.None? {
      var st1 := Prepare(st, DayPath(cfg, d));
      var ex := cfg.scrape(d);
      assert st1.events == st.events + st1.events[|st.events|..];
      ReplayConcat(None, st.events, st1.events[|st.events|..]);
      if st1.open.Some? {
        ReplayConcat(None, st1.events, Writes(st1.open.value, ex.written));
        ReplayWrites(st1.open.value, ex.written);
      }
    }
  }

  lemma {:induction false} WalkScoped(cfg: Config, st: WalkState, days: seq<Date>)
    requires ReplayFrom(None, st.events) == Some(st.open)
    ensures ReplayFrom(None, WalkDays(cfg, st, days).events) == Some(WalkDays(cfg, st, days).open)
    decreases |days|
  {
    if days != [] {
      WalkScoped(cfg, st, days[..|days| - 1]);
      StepScoped(cfg, WalkDays(cfg, st, days[..|days| - 1]), days[|days| - 1]);
    }
  }

  /** A walk that ends normally has opened, written and closed files one at a
      time and leaves none open. */
  lemma RunScoped(root: string, city: string, render: Date -> Page, existing: set<string>, start: Date, lastYear: int)
    requires ValidDate(start)
    ensures var r := Run(root, city, render, existing, start, lastYear);
      r.crash.None? ==> ReplayFrom(None, r.events) == Some(None)
  {
    var cfg := Config(root, Scraper(city, render));
    var st := WalkDays(cfg, Init(existing), VisitedDays(start, lastYear));
    WalkScoped(cfg, Init(existing), VisitedDays(start, lastYear));
    var r := Finish(st);
    if r.crash.None? {
      assert r.events == st.events + r.events[|st.events|..];
      ReplayConcat(None, st.events, r.events[|st.events|..]);
    }
  }

  // ----- Each month file is opened at most once -----

  /** Every file the log opens existed from its opening on and did not exist
      before the walk; no file is opened twice. */
  predicate OpensFresh(es: seq<FileEvent>, before: set<string>, existing: set<string>)
  {
    && before <= existing
    && (forall a :: 0 <= a < |es| && es[a].Opened? ==> es[a].path in existing && es[a].path !in before)
    && (forall a, b :: 0 <= a < b < |es| && es[a].Opened? && es[b].Opened? ==> es[a].path != es[b].path)
  }

  /** An open only at the end of `opening`, followed by rows only: the
      combined events open at most once, and only `path`. */
  lemma OpensOnce(opening: seq<FileEvent>, w: seq<FileEvent>, path: string)
    requires forall k :: 0 <= k < |opening| && opening[k].Opened? ==> k == |opening| - 1 && opening[k].path == path
    requires forall k :: 0 <= k < |w| ==> w[k].Wrote?
    ensures forall k :: 0 <= k < |opening + w| && (opening + w)[k].Opened? ==>
      k < |opening| && (opening + w)[k].path == path
    ensures forall a, b :: 0 <= a < b < |opening + w| ==> !((opening + w)[a].Opened? && (opening + w)[b].Opened?)
  {
    var all := opening + w;
    forall k | |opening| <= k < |all|
      ensures all[k].Wrote?
    {
      assert all[k] == w[k - |opening|];
    }
  }

  /** The events preparing a day appends, on their own. */
  lemma PrepareOpening(st: WalkState, path: string) returns (opening: seq<FileEvent>)
    ensures Prepare(st, path).events == st.events + opening
    ensures forall k :: 0 <= k < |opening| && opening[k].Opened? ==>
      k == |opening| - 1 && opening[k].path == path && path !in st.existing
  {
    var st1 := Prepare(st, path);
    opening := st1.events[|st.events|..];
    assert st1.events == st.events + opening;
    if path in st.existing {
      assert opening == [];
    }
  }

  /** Recording a day appends rows only. */
  lemma RecordAppends(st: WalkState, d: Date, ex: Extraction) returns (w: seq<FileEvent>)
    ensures Record(st, d, ex).events == st.events + w
    ensures forall k :: 0 <= k < |w| ==> w[k].Wrote?
  {
    w := if st.open.Some? then Writes(st.open.value, ex.written) else [];
  }

  /** What a day appends to the log: at most one `Opened`, and only of the
      day's month file when that file did not exist. */
  lemma StepAppends(cfg: Config, st: WalkState, d: Date) returns (added: seq<FileEvent>)
    ensures Step(cfg, st, d).events == st.events + added
    ensures forall k :: 0 <= k < |added| && added[k].Opened? ==>
      st.crash.None? && added[k].path == DayPath(cfg, d) && DayPath(cfg, d) !in st.existing
    ensures forall a, b :: 0 <= a < b < |added| ==> !(added[a].Opened? && added[b].Opened?)
  {
    if st.crash.Some? {
      added := [];
    } else {
      var path := DayPath(cfg, d);
      var st1 := Prepare(st, path);
      assert Step(cfg, st, d) == Record(st1, d, cfg.scrape(d));
      var opening := PrepareOpening(st, path);
      var w := RecordAppends(st1, d, cfg.scrape(d));
      OpensOnce(opening, w, path);
      added := opening + w;
      assert st.events + opening + w == st.events + added;
    }
  }

  /** A day's effect on the archive and the writer: a month file that
      exists is left alone and the current writer kept; otherwise the file is
      created and becomes the open one. */
  lemma StepEffect(cfg: Config, st: WalkState, d: Date)
    ensures var r := Step(cfg, st, d);
      && (st.crash.None? && DayPath(cfg, d) in st.existing ==>
            r.existing == st.existing && r.open == st.open)
      && (st.crash.None? && DayPath(cfg, d) !in st.existing ==>
            r.existing == st.existing + {DayPath(cfg, d)} && r.open == Some(DayPath(cfg, d)))
  {
  }

  lemma StepOpensFresh(cfg: Config, st: WalkState, d: Date, before: set<string>)
    requires OpensFresh(st.events, before, st.existing)
    ensures OpensFresh(Step(cfg, st, d).events, before, Step(cfg, st, d).existing)
  {
    var r := Step(cfg, st, d);
    var added := StepAppends(cfg, st, d);
    StepEffect(cfg, st, d);
    var n := |st.events|;
    forall a | 0 <= a < |r.events| && r.events[a].Opened?
      ensures r.events[a].path in r.existing && r.events[a].path !in before
    {
      if a >= n {
        assert r.events[a] == added[a - n];
      }
    }
    forall a, b | 0 <= a < b < |r.events| && r.events[a].Opened? && r.events[b].Opened?
      ensures r.events[a].path != r.events[b].path
    {
      if b >= n {
        assert r.events[b] == added[b - n];
        if a >= n {
          assert false;
        }
      }
    }
  }

  lemma {:induction false} WalkOpensFresh(cfg: Config, st: WalkState, days: seq<Date>, before: set<string>)
    requires OpensFresh(st.events, before, st.existing)
    ensures OpensFresh(WalkDays(cfg, st, days).events, before, WalkDays(cfg, st, days).existing)
    decreases |days|
  {
    if days != [] {
      WalkOpensFresh(cfg, st, days[..|days| - 1], before);
      StepOpensFresh(cfg, WalkDays(cfg, st, days[..|days| - 1]), days[|days| - 1], before);
    }
  }

  /** Over the whole walk, a file is opened (and its header written) only if
      it did not exist beforehand, and never twice. */
  lemma RunOpensEachFileOnce(root: string, city: string, render: Date -> Page, existing: set<string>, start: Date, lastYear: int)
    requires ValidDate(start)
    ensures var es := Run(root, city, render, existing, start, lastYear).events;
      && (forall a :: 0 <= a < |es| && es[a].Opened? ==> es[a].path !in existing)
      && (forall a, b :: 0 <= a < b < |es| && es[a].Opened? && es[b].Opened? ==> es[a].path != es[b].path)
  {
    var cfg := Config(root, Scraper(city, render));
    var st := WalkDays(cfg, Init(existing), VisitedDays(start, lastYear));
    WalkOpensFresh(cfg, Init(existing), VisitedDays(start, lastYear), existing);
    FinishOpensFresh(st, existing);
  }

  /** The final close opens nothing. */
  lemma FinishOpensFresh(st: WalkState, before: set<string>)
    requires OpensFresh(st.events, before, st.existing)
    ensures OpensFresh(Finish(st).events, before, Finish(st).existing)
  {
    var r := Finish(st);
    var closes := r.events[|st.events|..];
    assert OnlyCloses(closes);
    assert forall k :: |st.events| <= k < |r.events| ==> r.events[k] == closes[k - |st.events|];
  }

  // ----- Rows go to their own month's file -----

  /** The walk so far over `days`: every row written so far went to the file
      of its own month; while nothing has raised, the paths created are those
      of the days visited, and the open file is the last day's. */
  predicate Routed(cfg: Config, before: set<string>, days: seq<Date>, st: WalkState)
  {
    && LogRouted(cfg, st.events)
    && (st.crash.None? ==>
          && (forall p :: p in st.existing && p !in before ==>
                exists k :: 0 <= k < |days| && p == DayPath(cfg, days[k]))
          && (days != [] ==> st.open == Some(DayPath(cfg, days[|days| - 1]))))
  }

  /** The days a walk over a fresh archive visits: months in range, in
      nondecreasing month order, and none of their files there beforehand. */
  predicate FreshMonths(cfg: Config, before: set<string>, days: seq<Date>)
  {
    && (forall k :: 0 <= k < |days| ==> 1 <= days[k].month <= 12 && DayPath(cfg, days[k]) !in before)
    && (forall a, b :: 0 <= a <= b < |days| ==> MonthKey(days[a]) <= MonthKey(days[b]))
  }

  /** Every row a day's retrieval yields carries that day's date. */
  ghost predicate RowsDated(cfg: Config)
  {
    forall d, k :: 0 <= k < |cfg.scrape(d).written| ==> cfg.scrape(d).written[k].date == d
  }

  lemma ScraperRowsDated(root: string, city: string, render: Date -> Page)
    ensures RowsDated(Config(root, Scraper(city, render)))
  {
    var cfg := Config(root, Scraper(city, render));
    forall d
      ensures forall k :: 0 <= k < |cfg.scrape(d).written| ==> cfg.scrape(d).written[k].date == d
    {
      assert cfg.scrape(d) == Extract(render(d), city, d);
    }
  }

  /** A day whose month file already exists was preceded by a day of the
      same month, so the last day visited shares its file. */
  lemma ExistingIsCurrent(cfg: Config, before: set<string>, days: seq<Date>, st: WalkState, d: Date)
    requires FreshMonths(cfg, before, days + [d])
    requires Routed(cfg, before, days, st)
    requires st.crash.None? && DayPath(cfg, d) in st.existing
    ensures st.open == Some(DayPath(cfg, d))
  {
    var all := days + [d];
    assert all[|days|] == d;
    var k :| 0 <= k < |days| && DayPath(cfg, d) == DayPath(cfg, days[k]);
    assert all[k] == days[k] && all[|days| - 1] == days[|days| - 1];
    MonthPathInjective(cfg.root, d.year, d.month, days[k].year, days[k].month);
    assert MonthKey(days[k]) <= MonthKey(days[|days| - 1]) <= MonthKey(d);
    MonthKeyInjective(days[|days| - 1], d);
  }

  /** Every row in the log went to the file of its own date's month. */
  predicate LogRouted(cfg: Config, es: seq<FileEvent>)
  {
    forall k :: 0 <= k < |es| && es[k].Wrote? ==> es[k].path == DayPath(cfg, es[k].row.date)
  }

  lemma LogRoutedConcat(cfg: Config, a: seq<FileEvent>, b: seq<FileEvent>)
    requires LogRouted(cfg, a) && LogRouted(cfg, b)
    ensures LogRouted(cfg, a + b)
  {
    forall k | 0 <= k < |a + b| && (a + b)[k].Wrote?
      ensures (a + b)[k].path == DayPath(cfg, (a + b)[k].row.date)
    {
      if k >= |a| {
        assert (a + b)[k] == b[k - |a|];
      }
    }
  }

  /** The rows of a day go to its month's file. */
  lemma StepRoutedRows(cfg: Config, st: WalkState, d: Date)
    requires forall k :: 0 <= k < |cfg.scrape(d).written| ==> cfg.scrape(d).written[k].date == d
    requires LogRouted(cfg, st.events)
    requires st.crash.None? && DayPath(cfg, d) in st.existing ==> st.open == Some(DayPath(cfg, d))
    ensures LogRouted(cfg, Step(cfg, st, d).events)
  {
    if st.crash.None? {
      var path := DayPath(cfg, d);
      var st1 := Prepare(st, path);
      var opening := st1.events[|st.events|..];
      assert st1.events == st.events + opening;
      assert LogRouted(cfg, opening);
      LogRoutedConcat(cfg, st.events, opening);
      var ex := cfg.scrape(d);
      var w := if st1.open.Some? then Writes(path, ex.written) else [];
      assert LogRouted(cfg, w);
      assert Step(cfg, st, d).events == st1.events + w by {
        assert Step(cfg, st, d) == Record(st1, d, ex);
      }
      LogRoutedConcat(cfg, st1.events, w);
    }
  }

  lemma StepRouted(cfg: Config, before: set<string>, days: seq<Date>, st: WalkState, d: Date)
    requires RowsDated(cfg)
    requires FreshMonths(cfg, before, days + [d])
    requires Routed(cfg, before, days, st)
    ensures Routed(cfg, before, days + [d], Step(cfg, st, d))
  {
    var r := Step(cfg, st, d);
    var all := days + [d];
    var path := DayPath(cfg, d);
    if st.crash.None? && path in st.existing {
      ExistingIsCurrent(cfg, before, days, st, d);
    }
    StepRoutedRows(cfg, st, d);
    StepEffect(cfg, st, d);
    if r.crash.None? {
      CreatedPathsExtend(cfg, before, days, d, st.existing, r.existing);
      assert all[|all| - 1] == d;
    }
  }

  /** Adding at most the next day's file keeps every created path the file
      of a day visited. */
  lemma CreatedPathsExtend(cfg: Config, before: set<string>, days: seq<Date>, d: Date, prev: set<string>, next: set<string>)
    requires forall p :: p in prev && p !in before ==> exists k :: 0 <= k < |days| && p == DayPath(cfg, days[k])
    requires next <= prev + {DayPath(cfg, d)}
    ensures forall p :: p in next && p !in before ==>
      exists k :: 0 <= k < |days + [d]| && p == DayPath(cfg, (days + [d])[k])
  {
    var all := days + [d];
    forall p | p in next && p !in before
      ensures exists k :: 0 <= k < |all| && p == DayPath(cfg, all[k])
    {
      if p == DayPath(cfg, d) {
        assert all[|days|] == d;
      } else {
        var k :| 0 <= k < |days| && p == DayPath(cfg, days[k]);
        assert all[k] == days[k];
      }
    }
  }

  lemma {:induction false} WalkRouted(cfg: Config, before: set<string>, days: seq<Date>)
    requires RowsDated(cfg)
    requires FreshMonths(cfg, before, days)
    ensures Routed(cfg, before, days, WalkDays(cfg, Init(before), days))
    decreases |days|
  {
    if days != [] {
      var init := days[..|days| - 1];
      var d := days[|days| - 1];
      assert init + [d] == days;
      assert FreshMonths(cfg, before, init) by {
        forall a, b | 0 <= a <= b < |init|
          ensures MonthKey(init[a]) <= MonthKey(init[b])
        {
          assert init[a] == days[a] && init[b] == days[b];
        }
      }
      WalkRouted(cfg, before, init);
      StepRouted(cfg, before, init, WalkDays(cfg, Init(before), init), d);
    }
  }

  /** Walking from an archive holding none of the visited months' files,
      every row written, even by a walk that later raised, went to the file
      of its own date's month. */
  lemma RunRoutesByMonth(root: string, city: string, render: Date -> Page, existing: set<string>, start: Date, lastYear: int)
    requires ValidDate(start)
    requires forall k :: 0 <= k < WalkLength(start, lastYear) ==>
      var d := VisitedDays(start, lastYear)[k]; MonthPath(root, d.year, d.month) !in existing
    ensures var es := Run(root, city, render, existing, start, lastYear).events;
      forall k :: 0 <= k < |es| && es[k].Wrote? ==>
        es[k].path == MonthPath(root, es[k].row.date.year, es[k].row.date.month)
  {
    var cfg := Config(root, Scraper(city, render));
    var ds := VisitedDays(start, lastYear);
    assert FreshMonths(cfg, existing, ds) by {
      VisitedDaysMonthsOrdered(start, lastYear);
    }
    ScraperRowsDated(root, city, render);
    WalkRouted(cfg, existing, ds);
    FinishRouted(cfg, WalkDays(cfg, Init(existing), ds));
  }

  /** The final close adds no row. */
  lemma FinishRouted(cfg: Config, st: WalkState)
    requires LogRouted(cfg, st.events)
    ensures LogRouted(cfg, Finish(st).events)
  {
    var r := Finish(st);
    assert forall k :: 0 <= k < |st.events| ==> r.events[k] == st.events[k];
  }

  /** A walk whose first month file is already there never had a writer:
      as soon as the first day's loops reach `writer.writerow`, it raises. */
  lemma ExistingFirstMonthRaises(cfg: Config, existing: set<string>, d: Date)
    requires DayPath(cfg, d) in existing
    requires CallsWriter(cfg.scrape(d))
    ensures WalkDays(cfg, Init(existing), [d]).crash == Some(NoWriter(d))
  {
    assert [d][..0] == [];
  }

  /** A day whose month file already exists, met while another file is
      open, appends its rows to that open file, whatever month it belongs to. */
  lemma ExistingMonthGoesToOpenFile(cfg: Config, st: WalkState, d: Date)
    requires st.crash.None? && st.open.Some?
    requires DayPath(cfg, d) in st.existing
    ensures Step(cfg, st, d).events == st.events + Writes(st.open.value, cfg.scrape(d).written)
    ensures Step(cfg, st, d).open == st.open
  {
  }

  // ----- Return codes -----

  /** The codes after one more day: the earlier days' codes are kept and the
      day's own code is appended. */
  lemma CodesExtend(cfg: Config, base: nat, days: seq<Date>, mid: seq<nat>, codes: seq<nat>)
    requires days != [] && |mid| == base + |days| - 1
    requires forall k :: 0 <= k < |days| - 1 ==>
      !cfg.scrape(days[k]).status.Failed? && mid[base + k] == ReturnCode(cfg.scrape(days[k]).status)
    requires var d := days[|days| - 1];
      !cfg.scrape(d).status.Failed? && codes == mid + [ReturnCode(cfg.scrape(d).status)]
    ensures forall k :: 0 <= k < |days| ==>
      !cfg.scrape(days[k]).status.Failed? && codes[base + k] == ReturnCode(cfg.scrape(days[k]).status)
  {
    forall k | 0 <= k < |days|
      ensures !cfg.scrape(days[k]).status.Failed? && codes[base + k] == ReturnCode(cfg.scrape(days[k]).status)
    {
      if k < |days| - 1 {
        assert codes[base + k] == mid[base + k];
      }
    }
  }

  /** A walk that does not raise had no day whose retrieval raised, and
      recorded each day's return code in order. */
  lemma {:induction false} WalkCodes(cfg: Config, st: WalkState, days: seq<Date>)
    ensures var r := WalkDays(cfg, st, days);
      r.crash.None? ==>
        && |r.codes| == |st.codes| + |days|
        && r.codes[..|st.codes|] == st.codes
        && forall k :: 0 <= k < |days| ==>
             !cfg.scrape(days[k]).status.Failed? && r.codes[|st.codes| + k] == ReturnCode(cfg.scrape(days[k]).status)
    decreases |days|
  {
    if days != [] {
      var init := days[..|days| - 1];
      var d := days[|days| - 1];
      WalkCodes(cfg, st, init);
      var mid := WalkDays(cfg, st, init);
      var r := Step(cfg, mid, d);
      assert WalkDays(cfg, st, days) == r;
      if r.crash.None? {
        assert forall k :: 0 <= k < |days| - 1 ==> days[k] == init[k];
        CodesExtend(cfg, |st.codes|, days, mid.codes, r.codes);
      }
    }
  }

  /** From the initial state, the codes of a walk that does not raise are
      the days' return codes, in order. */
  lemma WalkCodesFromStart(cfg: Config, existing: set<string>, days: seq<Date>)
    requires WalkDays(cfg, Init(existing), days).crash.None?
    ensures var codes := WalkDays(cfg, Init(existing), days).codes;
      && |codes| == |days|
      && forall k :: 0 <= k < |days| ==>
           !cfg.scrape(days[k]).status.Failed? && codes[k] == ReturnCode(cfg.scrape(days[k]).status)
  {
    WalkCodes(cfg, Init(existing), days);
    var codes := WalkDays(cfg, Init(existing), days).codes;
    forall k | 0 <= k < |days|
      ensures !cfg.scrape(days[k]).status.Failed? && codes[k] == ReturnCode(cfg.scrape(days[k]).status)
    {
      assert codes[0 + k] == codes[k];
    }
  }

  /** Return codes of retrievals that report no data exactly on pages
      without a table: 0 for those days, 1 for the others. */
  lemma CodesOfTables(scrape: Date -> Extraction, render: Date -> Page, ds: seq<Date>, codes: seq<nat>)
    requires forall d :: scrape(d).status == NoData <==> render(d).pollutantRow == []
    requires |codes| == |ds|
    requires forall k :: 0 <= k < |ds| ==>
      !scrape(ds[k]).status.Failed? && codes[k] == ReturnCode(scrape(ds[k]).status)
    ensures forall k :: 0 <= k < |ds| ==> codes[k] == (if render(ds[k]).pollutantRow == [] then 0 else 1)
  {
  }

  lemma RunCodes(root: string, city: string, render: Date -> Page, existing: set<string>, start: Date, lastYear: int)
    requires ValidDate(start)
    ensures var ds := VisitedDays(start, lastYear);
      var r := Run(root, city, render, existing, start, lastYear);
      r.crash.None? ==>
        && |r.codes| == |ds|
        && forall k :: 0 <= k < |ds| ==> r.codes[k] == (if render(ds[k]).pollutantRow == [] then 0 else 1)
  {
    var scrape := Scraper(city, render);
    var cfg := Config(root, scrape);
    var ds := VisitedDays(start, lastYear);
    var st := WalkDays(cfg, Init(existing), ds);
    if st.crash.None? {
      WalkCodesFromStart(cfg, existing, ds);
      CodesOfTables(scrape, render, ds, st.codes);
    }
  }

}
